=== FILE: README.md ===
# jotschi 1BRC core in Dafny

This project models the core of `CalculateAverage_jotschi`, an entry in the
One Billion Row Challenge. The program reads a file of `station;temperature`
lines and aggregates min, max, sum and count per station, which it prints
as min/mean/max. It works in four steps:

- **Segments** plans one byte range per core (`getFileSegments`,
  `findSegment`). A file with less than 1,000,000 bytes per core stays one
  segment. Otherwise every interior cut `i * size` whose 64-byte window holds
  a newline is moved forward to just past that newline. Other cuts stay where
  they fell.
- **Scanner** is the per-worker loop of `parseFile`. It copies the name up
  to `;` into a 100-byte buffer and computes the Java `int` hash
  `31 * h + b` over signed bytes. It parses `-?d.d` / `-?dd.d` into integer
  tenths, then steps over an optional `\r` and one more byte.
- **Aggregation** is `MemorySegmentResult.put2` together with the `Result2`
  constructor. The table is keyed by the name hash. A name is recorded only
  when its hash is first seen, so two names with the same hash share one
  entry.
- **Output** is the key ordering and layout of `MemorySegmentResult.toString`:
  `{name=values, name=values}` followed by a newline.
- **Pipeline** ties the steps together. **JavaInt** holds the Java byte and
  32-bit `int` semantics. **LineFormat** is a reference encoder for files of
  well-formed lines, and is used to state the round-trip theorems.

Temperatures are kept in integer tenths, the value the source holds before
it divides by `10.0`. Min, max, sum and count are therefore exact. Errors
that the Java code raises as exceptions are results of type
`Scanner.Result`:

- `KeyTooLong` is the 101st byte written into the 100-byte name buffer.
- `OutOfBounds` is a read past the end of the slice.

The headline theorem is `Pipeline.RunFoldsAllLines`. Take a file of
well-formed lines, and a core count for which the file stays one segment
or no line is longer than 64 bytes. Cutting the file into segments,
scanning each segment and folding all records gives exactly the table that
folding every line in file order gives. The result therefore does not
depend on the number of cores (`Pipeline.RunIndependentOfCores`). A
concrete file shows the 64-byte bound is needed once the file is split
(`Pipeline.UnsnappedCutSplitsRecord`): a cut lands inside a record, and the
first worker reads past its slice, so the run fails with `OutOfBounds`.

The key loop stops when `currentPosition != segmentEnd` fails. The source
compares a slice-relative cursor with the absolute end offset of the
segment. The model keeps that comparison as written. `segmentEnd` is a
parameter, and the round-trip lemmas assume that the slice does not extend
past it, which always holds in the program.

## Model

All source paths are relative to the repository root.

| member | source | states |
|---|---|---|
| JavaInt.JavaByte | src/main/java/dev/morling/onebrc/CalculateAverage_jotschi.java:67-69 | a file byte read as a Java `byte` lies in [-128, 127], agrees with the byte modulo 256, and is unchanged below 128 |
| JavaInt.Wrap32 | src/main/java/dev/morling/onebrc/CalculateAverage_jotschi.java:65-69 | the Java `int` result of an expression is in the 32-bit range, congruent to the exact value modulo 2^32, and equal to it when that value already fits |
| JavaInt.Wrap32Step | src/main/java/dev/morling/onebrc/CalculateAverage_jotschi.java:69 | wrapping after each `31 * h + b` step gives the same `int` as wrapping once at the end |
| Scanner.JavaHash | src/main/java/dev/morling/onebrc/CalculateAverage_jotschi.java:64-69 | the running hash of any name is a value of Java `int`, whatever the name's length |
| Scanner.JavaHashIsWrappedPolynomial | src/main/java/dev/morling/onebrc/CalculateAverage_jotschi.java:65-69 | the overflowing running hash equals the same Horner fold `31 * h + b` over the signed bytes computed without overflow, reduced to a Java `int` |
| Scanner.ScanKey | src/main/java/dev/morling/onebrc/CalculateAverage_jotschi.java:62-70 | a successful key loop leaves the cursor inside the slice with at most 100 buffered bytes, and overflows the buffer only when more than 100 bytes were there to copy |
| Scanner.ScanKeySound | src/main/java/dev/morling/onebrc/CalculateAverage_jotschi.java:64-70 | the buffered key is exactly the bytes from the cursor up to the stopping point, in order and free of `;`, its hash is the wrapped `31 * h + b` fold of those bytes, and the cursor ends just past the `;` or at `segmentEnd` |
| Scanner.ParseTemp | src/main/java/dev/morling/onebrc/CalculateAverage_jotschi.java:71-87 | a parsed temperature advances the cursor by 3 to 5 bytes and stays in the slice, and the only failure is a read past the end of the slice |
| Scanner.ParseTempRange | src/main/java/dev/morling/onebrc/CalculateAverage_jotschi.java:71-87 | on a well-formed `-?d.d` or `-?dd.d` token the value lies in [-999, 999] tenths and is negative only when a leading `-` was consumed |
| Scanner.ParseRecord | src/main/java/dev/morling/onebrc/CalculateAverage_jotschi.java:61-93 | every parsed record moves the cursor forward by at least 4 bytes, so the scan loop terminates at the slice end |
| Scanner.ParseRecordSound | src/main/java/dev/morling/onebrc/CalculateAverage_jotschi.java:61-92 | a parsed record's key is the bytes at the record start, is at most 100 bytes long, holds no `;` and carries its own hash |
| Scanner.ScanFrom | src/main/java/dev/morling/onebrc/CalculateAverage_jotschi.java:61-94 | the loop yields no records once the cursor reaches the slice end, and at most one record per 4 bytes |
| Scanner.ScanFromSound | src/main/java/dev/morling/onebrc/CalculateAverage_jotschi.java:61-94 | every record the scan loop yields has a buffered key of at most 100 bytes free of `;` with its own hash |
| Scanner.ScanSegment | src/main/java/dev/morling/onebrc/CalculateAverage_jotschi.java:52-61 | a worker's successful scan of its slice yields at most one record per 4 bytes of the slice, plus one |
| Scanner.ScanSegmentSound | src/main/java/dev/morling/onebrc/CalculateAverage_jotschi.java:51-94 | every record a worker folds in is valid in that sense |
| LineFormat.ParseTempRoundTrip | src/main/java/dev/morling/onebrc/CalculateAverage_jotschi.java:71-87 | parsing the text of any temperature in [-99.9, 99.9] gives back its tenths and stops right after the text |
| LineFormat.ScanKeyRoundTrip | src/main/java/dev/morling/onebrc/CalculateAverage_jotschi.java:62-70 | over a name of at most 100 bytes free of `;` and followed by `;`, the key loop buffers exactly that name with its Java hash and stops just past the `;` |
| LineFormat.ParseRecordRoundTrip | src/main/java/dev/morling/onebrc/CalculateAverage_jotschi.java:61-93 | a well-formed line, LF- or CRLF-terminated, parses to its name, hash and tenths, and the cursor lands on the first byte after its line ending |
| LineFormat.CrlfReadsAsLf | src/main/java/dev/morling/onebrc/CalculateAverage_jotschi.java:88-91 | a CRLF-terminated record yields the same measurement as its LF form |
| LineFormat.ScanFromRoundTrip | src/main/java/dev/morling/onebrc/CalculateAverage_jotschi.java:61-94 | scanning the encoding of a run of well-formed lines yields exactly their measurements, in order |
| LineFormat.ScanLines | src/main/java/dev/morling/onebrc/CalculateAverage_jotschi.java:51-94 | scanning the bytes between the start of line a and the start of line b of a file yields the measurements of lines a to b |
| LineFormat.KeyRunsToEnd | src/main/java/dev/morling/onebrc/CalculateAverage_jotschi.java:67-70 | with `segmentEnd` equal to the slice length (segment 0), a key loop over bytes free of `;` that fit the buffer copies them all and stops at the segment end without failing |
| LineFormat.TruncatedNameFails | src/main/java/dev/morling/onebrc/CalculateAverage_jotschi.java:67-74 | with `segmentEnd` equal to the slice length (segment 0), a name cut off by the end of the slice, with no `;` before it, makes the temperature read go past the slice, so the record fails with `OutOfBounds` |
| LineFormat.KeyReadsPastSlice | src/main/java/dev/morling/onebrc/CalculateAverage_jotschi.java:67 | with `segmentEnd` beyond the slice (any later segment), a key loop over bytes free of `;` that fit the buffer reads past the slice and fails with `OutOfBounds`, whatever the running hash |
| LineFormat.InteriorTruncatedNameFails | src/main/java/dev/morling/onebrc/CalculateAverage_jotschi.java:61-70 | with `segmentEnd` beyond the slice (any later segment), a name cut off by the end of the slice, with no `;` before it, fails in the key loop's own read with `OutOfBounds`, before any temperature read |
| LineFormat.ScanLineThenFail | src/main/java/dev/morling/onebrc/CalculateAverage_jotschi.java:61-94 | a well-formed line followed by bytes whose scan fails makes the scan from the line's start fail with the same error |
| LineFormat.ScanLinesThenFail | src/main/java/dev/morling/onebrc/CalculateAverage_jotschi.java:61-94 | a run of well-formed lines followed by bytes whose scan fails makes the whole scan fail with that error: a worker does not recover from a bad record |
| Segments.WindowEnd | src/main/java/dev/morling/onebrc/CalculateAverage_jotschi.java:129-131 | the lookahead window is 64 bytes, or the rest of the range when fewer than 64 bytes remain |
| Segments.FirstNewline | src/main/java/dev/morling/onebrc/CalculateAverage_jotschi.java:132-136 | the search returns the index of the first newline in the window, with none before it, or the window end when there is none |
| Segments.FindSegment | src/main/java/dev/morling/onebrc/CalculateAverage_jotschi.java:127-139 | the result lies in [location, location + 64] and within the limit; it equals location exactly when `i == skipSegment` or the window holds no newline; otherwise it is one past the window's first newline |
| Segments.GetFileSegments | src/main/java/dev/morling/onebrc/CalculateAverage_jotschi.java:102-112 | below 1,000,000 bytes per core the plan is the single segment (0, fileSize); otherwise it has exactly one segment per core |
| Segments.NaiveCutsInFile | src/main/java/dev/morling/onebrc/CalculateAverage_jotschi.java:117-119 | the naive cuts `i * size` and `i * size + size` lie inside the file |
| Segments.SegmentAt | src/main/java/dev/morling/onebrc/CalculateAverage_jotschi.java:117-123 | segment i starts within 64 bytes after `i * size`; an interior segment ends within 64 bytes after `(i + 1) * size`; the last ends at fileSize |
| Segments.AdjacentSegmentsMeet | src/main/java/dev/morling/onebrc/CalculateAverage_jotschi.java:117-123 | the end of segment i equals the start of segment i + 1, because both snap the same cut with the same 64-byte window |
| Segments.SegmentAtShape | src/main/java/dev/morling/onebrc/CalculateAverage_jotschi.java:117-123 | no segment starts after it ends; the first starts at 0, the last ends at fileSize, and an interior start follows a newline or has a newline-free window |
| Segments.SegmentsPartition | src/main/java/dev/morling/onebrc/CalculateAverage_jotschi.java:102-125 | for any core count the segments are contiguous, cover [0, fileSize) with no gap or overlap, and every interior boundary follows a newline unless its 64-byte window holds none |
| Aggregation.Put | src/main/java/dev/morling/onebrc/CalculateAverage_jotschi.java:243-283 | a new hash gets an entry with the record's name and the single value; a known hash keeps its name, takes the new min and max, adds the value to the sum and counts one more; every other entry is unchanged |
| Aggregation.FirstSightingIsResult2 | src/main/java/dev/morling/onebrc/CalculateAverage_jotschi.java:146-149 | the first sighting of a hash leaves min = max = sum = the value and count = 1, as `Result2(value)` does |
| Aggregation.Include | src/main/java/dev/morling/onebrc/CalculateAverage_jotschi.java:273-277 | the new min is the smaller of the old min and the value and is one of them, the new max likewise the larger, the sum grows by exactly the value and the count by one |
| Aggregation.IncludeValid | src/main/java/dev/morling/onebrc/CalculateAverage_jotschi.java:273-277 | folding a value into a statistic keeps min <= max, count >= 1 and count * min <= sum <= count * max |
| Aggregation.PutValid | src/main/java/dev/morling/onebrc/CalculateAverage_jotschi.java:248-283 | one update keeps every entry's name hashing to its key and every statistic valid |
| Aggregation.PutAll | src/main/java/dev/morling/onebrc/CalculateAverage_jotschi.java:61-92 | folding a worker's records into the table never drops a station already in it |
| Aggregation.PutAllValid | src/main/java/dev/morling/onebrc/CalculateAverage_jotschi.java:243-283 | folding valid records into a valid table keeps it valid |
| Aggregation.PutAllAppend | src/main/java/dev/morling/onebrc/CalculateAverage_jotschi.java:51-92 | folding one run of records and then another is the same as folding the two runs concatenated |
| Aggregation.PutAllStats | src/main/java/dev/morling/onebrc/CalculateAverage_jotschi.java:255-277 | after folding records into an empty table, a hash has an entry exactly when some record carries it, and the entry's count, sum, min and max are those of exactly the values of such records, with min and max attained |
| Aggregation.SummarisesSnoc | src/main/java/dev/morling/onebrc/CalculateAverage_jotschi.java:273-277 | one more update keeps count, sum and the attained extremes in step with the values seen |
| Aggregation.PutAllNames | src/main/java/dev/morling/onebrc/CalculateAverage_jotschi.java:255-263 | an entry's name is the key of the earliest record carrying its hash |
| Aggregation.PutAllAbsent | src/main/java/dev/morling/onebrc/CalculateAverage_jotschi.java:255-263 | a hash without an entry was carried by no record |
| Aggregation.SameHashMerges | src/main/java/dev/morling/onebrc/CalculateAverage_jotschi.java:255-271 | two records with equal hashes, whatever their names, become one entry under the first name holding both values |
| Aggregation.CollidingNamesMerge | src/main/java/dev/morling/onebrc/CalculateAverage_jotschi.java:255-271 | `Aa` and `BB` both hash to 2112, so `Aa=1.0` then `BB=2.0` give one entry `Aa` with min 10, max 20, sum 30, count 2 |
| Output.LexLessIrreflexive | src/main/java/dev/morling/onebrc/CalculateAverage_jotschi.java:214 | no name sorts before itself |
| Output.LexLessTransitive | src/main/java/dev/morling/onebrc/CalculateAverage_jotschi.java:214 | the name order is transitive |
| Output.LexLessTotal | src/main/java/dev/morling/onebrc/CalculateAverage_jotschi.java:214 | of two different names, one sorts before the other |
| Output.PrefixSortsFirst | src/main/java/dev/morling/onebrc/CalculateAverage_jotschi.java:214 | a proper prefix sorts before the longer name, and no name sorts before one of its own prefixes |
| Output.LexLessFirstDifference | src/main/java/dev/morling/onebrc/CalculateAverage_jotschi.java:214 | a name sorts before another exactly when it is a proper prefix of it or, at the first index where they differ, its byte is the smaller one |
| Output.Insert | src/main/java/dev/morling/onebrc/CalculateAverage_jotschi.java:214 | inserting adds exactly the one entry: the result is a permutation of the input plus it |
| Output.InsertSorted | src/main/java/dev/morling/onebrc/CalculateAverage_jotschi.java:214 | inserting into a sorted sequence keeps it sorted |
| Output.SortEntries | src/main/java/dev/morling/onebrc/CalculateAverage_jotschi.java:214 | the sort returns a permutation of its input |
| Output.SortEntriesSorted | src/main/java/dev/morling/onebrc/CalculateAverage_jotschi.java:214 | the sort returns names in non-decreasing order |
| Output.StrictlySortedUnique | src/main/java/dev/morling/onebrc/CalculateAverage_jotschi.java:214 | two strictly increasing sequences with the same elements are equal |
| Output.RowsOfTable | src/main/java/dev/morling/onebrc/CalculateAverage_jotschi.java:214-217 | iterating the key set visits every entry exactly once, and each is found again by its name's hash |
| Output.Listing | src/main/java/dev/morling/onebrc/CalculateAverage_jotschi.java:214 | the listed entries are in non-decreasing name order and are a permutation of the entries found by iterating the key set |
| Output.ListingOrdered | src/main/java/dev/morling/onebrc/CalculateAverage_jotschi.java:214-218 | the printed entries are all entries of the table, in strictly increasing name order, so each name appears once, and each has the statistic stored under its name's hash |
| Output.ListingDeterministic | src/main/java/dev/morling/onebrc/CalculateAverage_jotschi.java:214 | the printed order does not depend on the order in which the key set is iterated |
| Output.JoinedAppend | src/main/java/dev/morling/onebrc/CalculateAverage_jotschi.java:215-222 | joining two runs of entries is joining each and putting one `", "` between them when both are non-empty |
| Output.Render | src/main/java/dev/morling/onebrc/CalculateAverage_jotschi.java:212-223 | the text is `{`, the items `name=values` with `", "` between consecutive items and none after the last, then `}` and a newline |
| Output.ToString | src/main/java/dev/morling/onebrc/CalculateAverage_jotschi.java:211-224 | whatever order the key set is iterated in, the text is `{`, then the items of every table entry in strictly increasing name order, each with the statistic stored under its name's hash, separated by `", "`, then `}` and a newline |
| Pipeline.PartitionInFile | src/main/java/dev/morling/onebrc/CalculateAverage_jotschi.java:51-53 | every segment of a partition is a slice inside the file |
| Pipeline.AggregateValid | src/main/java/dev/morling/onebrc/CalculateAverage_jotschi.java:51-94 | running the workers over any segments keeps the table valid |
| Pipeline.Aggregate | src/main/java/dev/morling/onebrc/CalculateAverage_jotschi.java:51-94 | running the workers over the segments in order never drops a station already in the table |
| Pipeline.Run | src/main/java/dev/morling/onebrc/CalculateAverage_jotschi.java:45-95 | on any file and core count, a run that does not fail yields a table whose names hash to their keys and whose statistics are valid |
| Pipeline.EmptyFileRun | src/main/java/dev/morling/onebrc/CalculateAverage_jotschi.java:45-112 | an empty file is planned as one empty segment, and the run succeeds with no stations |
| Pipeline.SnapToLineStart | src/main/java/dev/morling/onebrc/CalculateAverage_jotschi.java:127-139 | in a file of lines of at most 64 bytes, a cut strictly inside the file, snapped with a full window or one reaching the end of the file, lands on a line start |
| Pipeline.SegmentStartAtLineStart | src/main/java/dev/morling/onebrc/CalculateAverage_jotschi.java:117-120 | in such a file every planned segment starts at a line start |
| Pipeline.SegmentEndAtLineStart | src/main/java/dev/morling/onebrc/CalculateAverage_jotschi.java:117-121 | in such a file every planned segment ends at a line start or the end of the file |
| Pipeline.AggregateLines | src/main/java/dev/morling/onebrc/CalculateAverage_jotschi.java:51-94 | contiguous segments on line starts, run in order, fold exactly the lines they cover, in file order |
| Pipeline.SingleSegmentRun | src/main/java/dev/morling/onebrc/CalculateAverage_jotschi.java:102-112 | a file under 1,000,000 bytes per core is scanned whole, so the run folds every line whatever the lines' lengths |
| Pipeline.SnappedRun | src/main/java/dev/morling/onebrc/CalculateAverage_jotschi.java:45-125 | on a file of well-formed lines of at most 64 bytes each, the split run folds every line in file order |
| Pipeline.RunFoldsAllLines | src/main/java/dev/morling/onebrc/CalculateAverage_jotschi.java:45-95 | on a file of well-formed lines that is either left whole or has no line over 64 bytes, the run succeeds and produces the table obtained by folding every line's measurement in file order |
| Pipeline.RunIndependentOfCores | src/main/java/dev/morling/onebrc/CalculateAverage_jotschi.java:45-125 | for two core counts that each leave the file whole or face only lines of at most 64 bytes, the results are equal |
| Pipeline.LongLineLayout | src/main/java/dev/morling/onebrc/CalculateAverage_jotschi.java:55-91 | the longest record the scanner accepts (a 100-byte name, `;-99.9` and CRLF) is a well-formed 108-byte line whose only newline is its last byte |
| Pipeline.UnsnappedCutSplitsRecord | src/main/java/dev/morling/onebrc/CalculateAverage_jotschi.java:45-125 | in a file of 27,778 copies of that record planned for three cores, segment 0 ends and segment 1 starts at byte 1,000,008, strictly inside the record spanning [999,972, 1,000,080), contrary to the planner's comment that every segment ends with a newline; the run then fails with `OutOfBounds` instead of producing a table |
| Pipeline.FirstWorkerFails | src/main/java/dev/morling/onebrc/CalculateAverage_jotschi.java:51-94 | in that file the first worker parses its 9,259 whole records, then its key loop runs into the segment end inside the next name and the temperature read fails with `OutOfBounds` |

## Left out

- File opening, memory mapping and the `Arena` allocation (lines 45-49, 178-181) are not modelled; the file is a byte sequence parameter.
- `Runtime.availableProcessors()` (line 103) is the parameter `cores`.
- The parallel `forEach` over segments (line 51) runs as a sequential fold in segment order. The concurrent, unsynchronised read-modify-write of the shared maps and native segment in `put2` is not modelled.
- Floating point is not modelled: `temp / 10.0`, the mean `sum / count` and `Math.round` (lines 92, 153-157, 183-189). `Output.Render` takes the text of a statistic as a function parameter.
- The native layout is not modelled (`ITEM_LAYOUT`, `currentOffset += 32`, `ByteBuffer` positions). That includes its capacity: the region holds 1000 items of 40 bytes, 40,000 bytes, and entries sit 32 bytes apart from offset 32. `put2` writes 28 bytes per entry, so writes fit 1249 entries, but `values` reads a 40-byte slice (line 202), so printing fits only 1248. A run therefore completes with at most 1248 distinct hashes. The table is an unbounded map.
- Output.ToString: the text of each statistic is the parameter `valueText`, standing for whatever `values(offset)` yields. `put2` writes the statistics through `extraSeg.asByteBuffer()`, which is big-endian (lines 244, 279-283), while `values` reads them with the native-order `JAVA_DOUBLE` and `JAVA_INT` layouts (lines 203-206). On a little-endian host the printed numbers are therefore the byte-swapped values, so a count of 1 reads as 16,777,216. The model keeps the exact statistics and does not describe that text.
- `print()` and `main` (lines 39-42, 227-239) are console output.
- `new String(keyBytes)` decoding is not modelled. The model compares names as unsigned bytes, which matches Java's `String` order for ASCII names. Two names with different hashes can decode to the same `String`, for example when malformed UTF-8 is replaced by U+FFFD. They would then share one key of the `String`-keyed map written at line 262, and only one of their entries would be printed. The model keeps both entries and lists every one, so `Output.ToString` assumes that distinct names decode to distinct strings.
- `JotschiTest` only drives `parseFile` against sample files. `parseFile` returns `null` (line 98), so the test has no logic to model.
- Aggregation.Put: `count` is an unbounded natural. The source keeps it in a Java `int`, which would wrap after 2^31 - 1 records of one station.
- Scanner.ScanFrom: cursor positions are unbounded naturals. The source keeps `pos` and `currentPosition` in Java `int`, which overflows on a slice longer than 2^31 - 1 bytes. This happens for a 13 GB input split over six or fewer cores.
- Pipeline.RunFoldsAllLines: for a file split into several segments (at least 1,000,000 bytes per core), this requires every line to be at most 64 bytes, the width of the lookahead window. The source accepts lines of up to 108 bytes (a 100-byte name, `;`, `-99.9` and CRLF). If a naive cut lands in a longer line with no newline in the next 64 bytes, the cut stays where it fell and that record is split between two workers. The worker before the cut then reads past its slice. If it handles segment 0, the guard on line 67 stops its key loop at `segmentEnd` and the temperature read goes past the slice (`LineFormat.TruncatedNameFails`). For any later segment the guard compares a slice-relative position with an absolute end that lies beyond the slice, so it never fires, and the key loop's own read goes past the slice (`LineFormat.InteriorTruncatedNameFails`). Either way the source throws rather than miscounting; the model's run returns `Err(OutOfBounds)` (`Pipeline.UnsnappedCutSplitsRecord` exhibits such a file). The model does not state, for every file of well-formed lines, that a run which succeeds yields the folded table. `Segments.SegmentsPartition` states this unsnapped case; the end-to-end theorem does not cover it. A file left as one segment is covered for all well-formed lines.
- Pipeline.RunIndependentOfCores: this carries the same restriction on multi-segment plans, for the same reason.

=== FILE: aggregation.dfy ===
/**
 The result table the workers fold their measurements into. Entries are
 keyed by the key hash, not by the name: a name is recorded only when its
 hash is first seen, and later records whose name has the same hash are
 merged into that entry. Temperatures stay in integer tenths.
 */
module Aggregation {
  import opened JavaInt
  import opened Scanner

  /** Running statistic of one entry: extremes, sum and number of values folded in. */
  datatype Stat = Stat(min: int, max: int, sum: int, count: nat)

  /** The statistic as `Result2(value)` creates it: a single value. */
  function Single(value: int): Stat {
    Stat(value, value, value, 1)
  }

  function Min(a: int, b: int): int {
    if a <= b then a else b
  }

  function Max(a: int, b: int): int {
    if a >= b then a else b
  }

  /** Folds one more value into a statistic. */
  function Include(st: Stat, value: int): (r: Stat)
    ensures r.min <= st.min && r.min <= value && (r.min == st.min || r.min == value)
    ensures r.max >= st.max && r.max >= value && (r.max == st.max || r.max == value)
    ensures r.sum - st.sum == value && r.count == st.count + 1
  {
    Stat(Min(st.min, value), Max(st.max, value), st.sum + value, st.count + 1)
  }

  /** An entry of the table: the name first recorded for its hash, and the statistic. */
  datatype Entry = Entry(name: seq<Byte>, stat: Stat)

  /** The result table, keyed by key hash. */
  type Table = map<int, Entry>

  const EmptyTable: Table := map[]

  /**
   `put2`: a hash seen for the first time starts from `min = max = temp`,
   `sum = 0`, `count = 0` and records the name; a known hash starts from its
   stored statistic and keeps its name. Either way the value is then folded in.
   */
  function Put(t: Table, m: Measurement): (r: Table)
    ensures r.Keys == t.Keys + {m.hash}
    ensures m.hash !in t ==> r[m.hash] == Entry(m.key, Single(m.tenths))
    ensures m.hash in t ==>
      var before := t[m.hash].stat;
      var after := r[m.hash].stat;
      && r[m.hash].name == t[m.hash].name
      && after.min == Min(before.min, m.tenths)
      && after.max == Max(before.max, m.tenths)
      && after.sum == before.sum + m.tenths
      && after.count == before.count + 1
    ensures forall h :: h in t && h != m.hash ==> r[h] == t[h]
  {
    if m.hash in t then
      t[m.hash := Entry(t[m.hash].name, Include(t[m.hash].stat, m.tenths))]
    else
      t[m.hash := Entry(m.key, Include(Stat(m.tenths, m.tenths, 0, 0), m.tenths))]
  }

  /** The first sighting of a hash leaves exactly the statistic `Result2(temp)` would hold. */
  lemma FirstSightingIsResult2(t: Table, m: Measurement)
    requires m.hash !in t
    ensures var st := Put(t, m)[m.hash].stat;
      st == Single(m.tenths) && st.min == st.max == st.sum == m.tenths && st.count == 1
  {
  }

  /** Folds a worker's measurements into the table in scan order. */
  function PutAll(t: Table, ms: seq<Measurement>): (r: Table)
    ensures t.Keys <= r.Keys
    decreases |ms|
  {
    if ms == [] then t else Put(PutAll(t, ms[..|ms| - 1]), ms[|ms| - 1])
  }

  /** Folding one more measurement is one more `Put`. */
  lemma PutAllSnoc(t: Table, ms: seq<Measurement>, m: Measurement)
    ensures PutAll(t, ms + [m]) == Put(PutAll(t, ms), m)
  {
    var ms' := ms + [m];
    assert ms'[..|ms'| - 1] == ms;
  }

  /** Folding two runs one after the other is folding their concatenation. */
  lemma {:induction false} PutAllAppend(t: Table, a: seq<Measurement>, b: seq<Measurement>)
    ensures PutAll(PutAll(t, a), b) == PutAll(t, a + b)
    decreases |b|
  {
    if b == [] {
      assert a + b == a;
    } else {
      var init, last := b[..|b| - 1], b[|b| - 1];
      assert b == init + [last];
      assert a + b == (a + init) + [last];
      PutAllAppend(t, a, init);
      PutAllSnoc(t, a + init, last);
      PutAllSnoc(PutAll(t, a), init, last);
    }
  }

  /** At least one value, with the sum between `count * min` and `count * max`. */
  ghost predicate ValidStat(st: Stat) {
    st.min <= st.max && st.count >= 1 && st.count * st.min <= st.sum <= st.count * st.max
  }

  /** Each name hashes to its entry, and each statistic is valid. */
  ghost predicate Valid(t: Table) {
    forall h :: h in t ==> JavaHash(t[h].name) == h && ValidStat(t[h].stat)
  }

  lemma IncludeValid(st: Stat, v: int)
    requires ValidStat(st)
    ensures ValidStat(Include(st, v))
  {
    var a := Include(st, v);
    MulMonotone(a.min, st.min, st.count);
    MulMonotone(st.max, a.max, st.count);
    assert a.count * a.min == st.count * a.min + a.min;
    assert a.count * a.max == st.count * a.max + a.max;
  }

  /** Folding a valid measurement into a valid table keeps it valid. */
  lemma PutValid(t: Table, m: Measurement)
    requires Valid(t) && ValidMeasurement(m)
    ensures Valid(Put(t, m))
  {
    if m.hash in t {
      IncludeValid(t[m.hash].stat, m.tenths);
    }
  }

  lemma {:induction false} PutAllValid(t: Table, ms: seq<Measurement>)
    requires Valid(t)
    requires forall i :: 0 <= i < |ms| ==> ValidMeasurement(ms[i])
    ensures Valid(PutAll(t, ms))
    decreases |ms|
  {
    if ms != [] {
      PutAllValid(t, ms[..|ms| - 1]);
      PutValid(PutAll(t, ms[..|ms| - 1]), ms[|ms| - 1]);
    }
  }

  /** The temperatures of the records with hash `h`, in scan order. */
  function ValuesOf(ms: seq<Measurement>, h: int): (vs: seq<int>)
    ensures |vs| <= |ms|
    decreases |ms|
  {
    if ms == [] then []
    else ValuesOf(ms[..|ms| - 1], h) + (if ms[|ms| - 1].hash == h then [ms[|ms| - 1].tenths] else [])
  }

  function Sum(vs: seq<int>): int {
    if vs == [] then 0 else vs[0] + Sum(vs[1..])
  }

  lemma {:induction false} SumSnoc(vs: seq<int>, v: int)
    ensures Sum(vs + [v]) == Sum(vs) + v
    decreases |vs|
  {
    if vs == [] {
      assert [] + [v] == [v];
    } else {
      assert (vs + [v])[1..] == vs[1..] + [v];
      SumSnoc(vs[1..], v);
    }
  }

  /** `st` summarises `vs`: its count, sum and extremes, each extreme one of the values. */
  ghost predicate Summarises(st: Stat, vs: seq<int>) {
    && st.count == |vs|
    && st.sum == Sum(vs)
    && (exists i :: 0 <= i < |vs| && vs[i] == st.min)
    && (exists i :: 0 <= i < |vs| && vs[i] == st.max)
    && (forall i :: 0 <= i < |vs| ==> st.min <= vs[i] <= st.max)
  }

  /** `k` is the key of the earliest record in `ms` with hash `h`. */
  ghost predicate FirstKey(ms: seq<Measurement>, h: int, k: seq<Byte>) {
    exists i :: 0 <= i < |ms| && ms[i].hash == h && ms[i].key == k
      && (forall j :: 0 <= j < i ==> ms[j].hash != h)
  }

  lemma SummarisesSnoc(st: Stat, vs: seq<int>, v: int)
    requires Summarises(st, vs) && vs != []
    ensures Summarises(Include(st, v), vs + [v])
  {
    var ws := vs + [v];
    SumSnoc(vs, v);
    var i :| 0 <= i < |vs| && vs[i] == st.min;
    var k :| 0 <= k < |vs| && vs[k] == st.max;
    assert ws[i] == vs[i] && ws[k] == vs[k] && ws[|vs|] == v;
    forall j | 0 <= j < |ws| ensures Min(st.min, v) <= ws[j] <= Max(st.max, v) {
      if j < |vs| {
        assert ws[j] == vs[j];
      }
    }
  }

  /**
   The statistic after folding `ms` into an empty table, stated without the
   fold: a hash has an entry exactly when some record has that hash, and the
   entry summarises exactly those records' values.
   */
  lemma {:induction false} PutAllStats(ms: seq<Measurement>, h: int)
    ensures h in PutAll(EmptyTable, ms) <==> ValuesOf(ms, h) != []
    ensures h in PutAll(EmptyTable, ms) ==> Summarises(PutAll(EmptyTable, ms)[h].stat, ValuesOf(ms, h))
    decreases |ms|
  {
    if ms != [] {
      var init := ms[..|ms| - 1];
      var m := ms[|ms| - 1];
      var t := PutAll(EmptyTable, init);
      var r := PutAll(EmptyTable, ms);
      assert r == Put(t, m);
      PutAllStats(init, h);
      if m.hash == h {
        if h in t {
          SummarisesSnoc(t[h].stat, ValuesOf(init, h), m.tenths);
        } else {
          var vs := ValuesOf(ms, h);
          assert vs == [m.tenths];
          assert vs[0] == m.tenths;
          assert Sum(vs) == m.tenths + Sum([]);
        }
      } else {
        var vs := ValuesOf(init, h);
        assert vs + [] == vs;
        assert ValuesOf(ms, h) == vs;
        assert h in r ==> r[h] == t[h];
      }
    }
  }

  /** The name of an entry is the key of the first record that carried its hash. */
  lemma {:induction false} PutAllNames(ms: seq<Measurement>, h: int)
    requires h in PutAll(EmptyTable, ms)
    ensures FirstKey(ms, h, PutAll(EmptyTable, ms)[h].name)
    decreases |ms|
  {
    var init := ms[..|ms| - 1];
    var m := ms[|ms| - 1];
    var t := PutAll(EmptyTable, init);
    if h in t {
      PutAllNames(init, h);
      var i :| 0 <= i < |init| && init[i].hash == h && init[i].key == t[h].name
        && (forall j :: 0 <= j < i ==> init[j].hash != h);
      assert ms[i] == init[i];
      forall j | 0 <= j < i ensures ms[j].hash != h {
        assert ms[j] == init[j];
      }
    } else {
      forall j | 0 <= j < |ms| - 1 ensures ms[j].hash != h {
        assert ms[j] == init[j];
        PutAllAbsent(init, h, j);
      }
    }
  }

  /** A hash without an entry was carried by no record folded in. */
  lemma {:induction false} PutAllAbsent(ms: seq<Measurement>, h: int, j: nat)
    requires h !in PutAll(EmptyTable, ms) && j < |ms|
    ensures ms[j].hash != h
    decreases |ms|
  {
    if j < |ms| - 1 {
      PutAllAbsent(ms[..|ms| - 1], h, j);
      assert ms[j] == ms[..|ms| - 1][j];
    }
  }

  lemma JavaHashPair(a: Byte, b: Byte)
    requires a < 128 && b < 128
    ensures JavaHash([a, b]) == 31 * a + b
  {
    var key: seq<Byte> := [a, b];
    var one: seq<Byte> := [a];
    assert key[..1] == one && one[..0] == [];
    assert JavaHash(one) == Wrap32(31 * JavaHash([]) + JavaByte(a)) == a;
    assert JavaHash(key) == Wrap32(31 * JavaHash(one) + JavaByte(b));
  }

  /**
   Two records with the same hash, whatever their names, end up in one
   entry that carries the first record's name and both values.
   */
  lemma SameHashMerges(a: Measurement, b: Measurement)
    requires a.hash == b.hash
    ensures PutAll(EmptyTable, [a, b]) == map[a.hash := Entry(a.key, Include(Single(a.tenths), b.tenths))]
  {
    var ms := [a, b];
    assert ms[..1] == [a];
    assert [a][..0] == [];
    var t1 := Put(EmptyTable, a);
    assert PutAll(EmptyTable, [a]) == Put(PutAll(EmptyTable, []), a) == t1;
    assert t1 == map[a.hash := Entry(a.key, Single(a.tenths))];
    assert PutAll(EmptyTable, ms) == Put(t1, b);
    assert Put(t1, b) == t1[a.hash := Entry(a.key, Include(Single(a.tenths), b.tenths))];
  }

  /** "Aa" and "BB" both hash to 2112, so the second is counted under the first's name. */
  lemma CollidingNamesMerge()
    ensures JavaHash([65, 97]) == JavaHash([66, 66]) == 2112
    ensures PutAll(EmptyTable, [Measurement([65, 97], 2112, 10), Measurement([66, 66], 2112, 20)])
         == map[2112 := Entry([65, 97], Stat(10, 20, 30, 2))]
  {
    JavaHashPair(65, 97);
    JavaHashPair(66, 66);
    SameHashMerges(Measurement([65, 97], 2112, 10), Measurement([66, 66], 2112, 20));
  }
}

=== FILE: java_int.dfy ===
/**
 The Java primitive behaviour the scanner relies on: file bytes, Java's
 signed view of a byte, and 32-bit two's-complement `int` arithmetic.
 */
module JavaInt {

  /** An unsigned byte as stored in the file. */
  type Byte = b: int | 0 <= b < 256

  const SEMICOLON: Byte := 59
  const NEWLINE: Byte := 10
  const CARRIAGE_RETURN: Byte := 13
  const MINUS: Byte := 45
  const DOT: Byte := 46
  const ZERO: Byte := 48

  const TWO_32: int := 0x1_0000_0000
  const TWO_31: int := 0x8000_0000

  predicate IsInt32(x: int) {
    -TWO_31 <= x < TWO_31
  }

  /** Java reads a `byte` as a signed value in [-128, 127]. */
  function JavaByte(b: Byte): (r: int)
    ensures -128 <= r < 128
    ensures r % 256 == b % 256
    ensures b < 128 ==> r == b
  {
    if b < 128 then b else b - 256
  }

  /** The value a Java `int` holds after an expression whose exact value is `x`. */
  function Wrap32(x: int): (r: int)
    ensures IsInt32(r)
    ensures (r - x) % TWO_32 == 0
    ensures IsInt32(x) ==> r == x
  {
    (x + TWO_31) % TWO_32 - TWO_31
  }

  /** Adding a multiple of 2^32 does not change the wrapped value. */
  lemma {:induction false} Wrap32Periodic(x: int, k: int)
    ensures Wrap32(x + k * TWO_32) == Wrap32(x)
  {
    var a := x + TWO_31;
    var q := a / TWO_32;
    var r := a % TWO_32;
    assert a + k * TWO_32 == (q + k) * TWO_32 + r;
    assert (a + k * TWO_32) / TWO_32 == q + k;
  }

  /**
   Wrapping after every step of `31 * h + b` gives the same `int` as wrapping
   once at the end: the property that lets a Java hash be reasoned about as
   a polynomial.
   */
  lemma {:induction false} Wrap32Step(h: int, b: int)
    ensures Wrap32(31 * Wrap32(h) + b) == Wrap32(31 * h + b)
  {
    var w := Wrap32(h);
    var k := (w - h) / TWO_32;
    assert w - h == k * TWO_32;
    assert 31 * w + b == (31 * h + b) + (31 * k) * TWO_32;
    Wrap32Periodic(31 * h + b, 31 * k);
  }

  /** Multiplying by a natural number preserves order. */
  lemma MulMonotone(a: int, b: int, c: nat)
    requires a <= b
    ensures a * c <= b * c
  {
    assert b * c - a * c == (b - a) * c;
  }
}

=== FILE: line_format.dfy ===
/**
 The input format `<station>;<temperature>\n` (optionally `\r\n`) as an
 encoder, so that the scanner can be stated as its inverse.
 */
module LineFormat {
  import opened JavaInt
  import opened Scanner

  /** One input line: station name, temperature in tenths, and whether it ends in CRLF. */
  datatype Line = Line(key: seq<Byte>, tenths: int, crlf: bool)

  /** A name of at most 100 bytes without `;` or newline, and a temperature within ±99.9. */
  ghost predicate WellFormedLine(l: Line) {
    && |l.key| <= BUFFER_SIZE
    && SEMICOLON !in l.key
    && NEWLINE !in l.key
    && -999 <= l.tenths <= 999
  }

  ghost predicate AllWellFormed(ls: seq<Line>) {
    forall i :: 0 <= i < |ls| ==> WellFormedLine(ls[i])
  }

  /** Text of a temperature in tenths: `-?d.d` below 10.0 in magnitude, `-?dd.d` otherwise. */
  function TempBytes(t: int): (r: seq<Byte>)
    requires -999 <= t <= 999
    ensures 3 <= |r| <= 5

  {
    var a := if t < 0 then -t else t;
    var sign: seq<Byte> := if t < 0 then [MINUS] else [];
    var digits: seq<Byte> := if a < 100 then [ZERO + a / 10] else [ZERO + a / 100, ZERO + (a / 10) % 10];
    sign + digits + [DOT, ZERO + a % 10]
  }

  /** The temperature text is a token of the closed format the parser accepts. */
  lemma TempBytesWellFormed(t: int)
    requires -999 <= t <= 999
    ensures WellFormedTemp(TempBytes(t), 0, |TempBytes(t)|)
  {
  }

  function LineEnding(crlf: bool): seq<Byte> {
    if crlf then [CARRIAGE_RETURN, NEWLINE] else [NEWLINE]
  }

  function EncodeLine(l: Line): (r: seq<Byte>)
    requires -999 <= l.tenths <= 999
    ensures |l.key| + 5 <= |r| <= |l.key| + 8
    ensures r[|r| - 1] == NEWLINE
  {
    l.key + [SEMICOLON] + TempBytes(l.tenths) + LineEnding(l.crlf)
  }

  function EncodeAll(ls: seq<Line>): (r: seq<Byte>)
    requires AllWellFormed(ls)
  {
    if ls == [] then [] else EncodeLine(ls[0]) + EncodeAll(ls[1..])
  }

  /** The measurement the scanner is expected to produce for a line. */
  function MeasurementOf(l: Line): (m: Measurement)
    ensures m.key == l.key && m.tenths == l.tenths && m.hash == JavaHash(l.key)
  {
    Measurement(l.key, JavaHash(l.key), l.tenths)
  }

  function Measurements(ls: seq<Line>): (ms: seq<Measurement>)
    ensures |ms| == |ls|
    ensures forall i :: 0 <= i < |ls| ==> ms[i] == MeasurementOf(ls[i])
  {
    seq(|ls|, i requires 0 <= i < |ls| => MeasurementOf(ls[i]))
  }

  /** `w` occurs in `s` starting at `pos`. */
  ghost predicate Occurs(s: seq<Byte>, pos: int, w: seq<Byte>) {
    && 0 <= pos && pos + |w| <= |s|
    && forall j {:trigger w[j]} :: 0 <= j < |w| ==> s[pos + j] == w[j]
  }

  /** An occurrence of `a + b` is an occurrence of `a` followed by one of `b`. */
  lemma OccursSplit(s: seq<Byte>, pos: int, a: seq<Byte>, b: seq<Byte>)
    requires Occurs(s, pos, a + b)
    ensures Occurs(s, pos, a) && Occurs(s, pos + |a|, b)
  {
    var w := a + b;
    forall j | 0 <= j < |a| ensures s[pos + j] == a[j] {
      assert w[j] == a[j];
    }
    forall j | 0 <= j < |b| ensures s[pos + |a| + j] == b[j] {
      assert s[pos + (|a| + j)] == w[|a| + j];
    }
  }

  /** `OccursSplit` for a word already known to be the concatenation. */
  lemma OccursParts(s: seq<Byte>, pos: int, w: seq<Byte>, a: seq<Byte>, b: seq<Byte>)
    requires Occurs(s, pos, w) && w == a + b
    ensures Occurs(s, pos, a) && Occurs(s, pos + |a|, b)
  {
    OccursSplit(s, pos, a, b);
  }

  /** An occurrence is the slice of the same length at its position. */
  lemma OccursSlice(s: seq<Byte>, pos: int, w: seq<Byte>)
    requires Occurs(s, pos, w)
    ensures s[pos..pos + |w|] == w
  {
    forall j | 0 <= j < |w| ensures s[pos..pos + |w|][j] == w[j] {
      assert s[pos + j] == w[j];
    }
  }

  /** The middle part of a concatenation occurs right after the first part. */
  lemma OccursMiddle(p: seq<Byte>, q: seq<Byte>, r: seq<Byte>)
    ensures Occurs(p + q + r, |p|, q)
  {
    forall j | 0 <= j < |q| ensures (p + q + r)[|p| + j] == q[j] {
      assert (p + q + r)[|p| + j] == (p + q)[|p| + j];
    }
  }

  /** Decimal digits of a magnitude below 1000. */
  lemma DecimalDigits(a: int)
    requires 0 <= a <= 999
    ensures 0 <= a % 10 < 10 && 0 <= (a / 10) % 10 < 10
    ensures a < 100 ==> 0 <= a / 10 < 10 && 10 * (a / 10) + a % 10 == a
    ensures a >= 100 ==> 0 <= a / 100 < 10 && 100 * (a / 100) + 10 * ((a / 10) % 10) + a % 10 == a
  {
  }

  /** The temperature parser reads back exactly what `TempBytes` writes. */
  lemma {:induction false} ParseTempRoundTrip(s: seq<Byte>, cur: nat, t: int)
    requires -999 <= t <= 999
    requires Occurs(s, cur, TempBytes(t))
    ensures ParseTemp(s, cur) == Ok(Reading(t, cur + |TempBytes(t)|))
  {
    var tb := TempBytes(t);
    var a := if t < 0 then -t else t;
    var c := if t < 0 then cur + 1 else cur;
    var o := c - cur;
    var sign := if t < 0 then -1 else 1;
    DecimalDigits(a);
    assert s[cur] == tb[0];
    assert s[cur] == MINUS <==> t < 0;
    assert s[c] == tb[o] && s[c + 1] == tb[o + 1] && s[c + 2] == tb[o + 2];
    if a < 100 {
      ReadShortTemp(s, cur, c, sign, a);
    } else {
      assert s[c + 3] == tb[o + 3];
      ReadLongTemp(s, cur, c, sign, a);
    }
  }

  /** The sign of a temperature token: an optional minus before the digits at `c`. */
  ghost predicate SignAt(s: seq<Byte>, cur: nat, c: nat, sign: int) {
    || (c == cur + 1 && cur < |s| && s[cur] == MINUS && sign == -1)
    || (c == cur && cur < |s| && s[cur] != MINUS && sign == 1)
  }

  lemma ReadShortTemp(s: seq<Byte>, cur: nat, c: nat, sign: int, a: int)
    requires SignAt(s, cur, c, sign) && 0 <= a < 100 && c + 2 < |s|
    requires s[c] == ZERO + a / 10 && s[c + 1] == DOT && s[c + 2] == ZERO + a % 10
    ensures ParseTemp(s, cur) == Ok(Reading(sign * a, c + 3))
  {
    DecimalDigits(a);
    assert Digit(s[c]) * 10 + Digit(s[c + 2]) == a;
  }

  lemma ReadLongTemp(s: seq<Byte>, cur: nat, c: nat, sign: int, a: int)
    requires SignAt(s, cur, c, sign) && 100 <= a <= 999 && c + 3 < |s|
    requires s[c] == ZERO + a / 100 && s[c + 1] == ZERO + (a / 10) % 10
    requires s[c + 2] == DOT && s[c + 3] == ZERO + a % 10
    ensures ParseTemp(s, cur) == Ok(Reading(sign * a, c + 4))
  {
    DecimalDigits(a);
    assert Digit(s[c]) * 100 + (Digit(s[c + 1]) * 10 + Digit(s[c + 3])) == a;
  }

  /** The key loop's running hash, started at `h`, after reading `rest`. */
  function HashFrom(h: int, rest: seq<Byte>): int
    decreases |rest|
  {
    if rest == [] then h else HashFrom(Wrap32(31 * h + JavaByte(rest[0])), rest[1..])
  }

  /** Continuing the running hash of `a` over `b` gives the hash of `a + b`. */
  lemma {:induction false} HashFromJavaHash(a: seq<Byte>, b: seq<Byte>)
    ensures HashFrom(JavaHash(a), b) == JavaHash(a + b)
    decreases |b|
  {
    if b == [] {
      assert a + b == a;
    } else {
      JavaHashSnoc(a, b[0]);
      HashFromJavaHash(a + [b[0]], b[1..]);
      assert (a + [b[0]]) + b[1..] == a + b;
    }
  }

  /**
   With `buffered` already read and running hash `h`, the key loop run over
   the rest of a key free of `;`, followed by `;`, collects the whole key.
   */
  lemma {:induction false} ScanKeyRest(s: seq<Byte>, segmentEnd: int, cur: nat, buffered: seq<Byte>, h: int, rest: seq<Byte>)
    requires |buffered| + |rest| <= BUFFER_SIZE
    requires cur + |rest| < |s| <= segmentEnd
    requires Occurs(s, cur, rest) && SEMICOLON !in rest
    requires s[cur + |rest|] == SEMICOLON
    ensures ScanKey(s, segmentEnd, cur, buffered, h)
         == Ok(KeyScan(buffered + rest, HashFrom(h, rest), cur + |rest| + 1))
    decreases |rest|
  {
    if rest == [] {
      assert buffered + rest == buffered;
      ScanKeyAtSemicolon(s, segmentEnd, cur, buffered, h);
    } else {
      var b := rest[0];
      var tail := rest[1..];
      assert rest == [b] + tail;
      OccursSplit(s, cur, [b], tail);
      assert s[cur] == b && b != SEMICOLON;
      var next := buffered + [b];
      var h' := Wrap32(31 * h + JavaByte(b));
      assert ScanKey(s, segmentEnd, cur, buffered, h) == ScanKey(s, segmentEnd, cur + 1, next, h');
      ScanKeyRest(s, segmentEnd, cur + 1, next, h', tail);
      assert next + tail == buffered + rest;
    }
  }

  lemma ScanKeyAtSemicolon(s: seq<Byte>, segmentEnd: int, cur: nat, buffered: seq<Byte>, hash: int)
    requires cur < |s| <= segmentEnd && |buffered| <= BUFFER_SIZE && s[cur] == SEMICOLON
    ensures ScanKey(s, segmentEnd, cur, buffered, hash) == Ok(KeyScan(buffered, hash, cur + 1))
  {
  }

  /** Over a key free of `;`, followed by `;`, the key loop collects the key and its hash. */
  lemma ScanKeyRoundTrip(s: seq<Byte>, segmentEnd: int, pos: nat, key: seq<Byte>)
    requires |key| <= BUFFER_SIZE
    requires pos + |key| < |s| <= segmentEnd
    requires forall j :: 0 <= j < |key| ==> s[pos + j] == key[j] && key[j] != SEMICOLON
    requires s[pos + |key|] == SEMICOLON
    ensures ScanKey(s, segmentEnd, pos, [], 0) == Ok(KeyScan(key, JavaHash(key), pos + |key| + 1))
  {
    assert Occurs(s, pos, key) by {
      forall j | 0 <= j < |key| ensures s[pos + j] == key[j] {
      }
    }
    ScanKeyRest(s, segmentEnd, pos, [], 0, key);
    HashFromJavaHash([], key);
    assert [] + key == key;
  }

  /** Where the parts of a line sit in its encoding. */
  lemma EncodeLineLayout(l: Line)
    requires -999 <= l.tenths <= 999
    ensures var enc := EncodeLine(l); var k := |l.key|; var tb := TempBytes(l.tenths);
      && |enc| == k + 1 + |tb| + |LineEnding(l.crlf)|
      && (forall j :: 0 <= j < k ==> enc[j] == l.key[j])
      && enc[k] == SEMICOLON
      && (forall j :: 0 <= j < |tb| ==> enc[k + 1 + j] == tb[j])
      && (enc[k + 1 + |tb|] == CARRIAGE_RETURN <==> l.crlf)
  {
  }

  /** The key of an encoded line scans back with its hash, the cursor just past `;`. */
  lemma KeyOfEncodedLine(s: seq<Byte>, segmentEnd: int, pos: nat, l: Line)
    requires WellFormedLine(l)
    requires Occurs(s, pos, EncodeLine(l)) && |s| <= segmentEnd
    ensures ScanKey(s, segmentEnd, pos, [], 0) == Ok(KeyScan(l.key, JavaHash(l.key), pos + |l.key| + 1))
  {
    var enc := EncodeLine(l);
    var k := |l.key|;
    EncodeLineLayout(l);
    forall j | 0 <= j < k ensures s[pos + j] == l.key[j] && l.key[j] != SEMICOLON {
      assert s[pos + j] == enc[j];
      assert l.key[j] in l.key;
    }
    assert s[pos + k] == enc[k];
    ScanKeyRoundTrip(s, segmentEnd, pos, l.key);
  }

  /** The temperature of an encoded line reads back after its `;`. */
  lemma TempOfEncodedLine(s: seq<Byte>, pos: nat, l: Line)
    requires WellFormedLine(l)
    requires Occurs(s, pos, EncodeLine(l))
    ensures var tStart := pos + |l.key| + 1;
      ParseTemp(s, tStart) == Ok(Reading(l.tenths, tStart + |TempBytes(l.tenths)|))
  {
    var tb := TempBytes(l.tenths);
    var head := l.key + [SEMICOLON];
    assert EncodeLine(l) == (head + tb) + LineEnding(l.crlf);
    OccursSplit(s, pos, head + tb, LineEnding(l.crlf));
    OccursSplit(s, pos, head, tb);
    ParseTempRoundTrip(s, pos + |head|, l.tenths);
  }

  /** After the temperature, the optional `\r` and the newline take the cursor to the line's end. */
  lemma EndOfEncodedLine(s: seq<Byte>, pos: nat, l: Line)
    requires WellFormedLine(l)
    requires Occurs(s, pos, EncodeLine(l))
    ensures var tEnd := pos + |l.key| + 1 + |TempBytes(l.tenths)|;
      && tEnd < |s|
      && (if s[tEnd] == CARRIAGE_RETURN then tEnd + 2 else tEnd + 1) == pos + |EncodeLine(l)|
  {
    var enc := EncodeLine(l);
    var tb := TempBytes(l.tenths);
    var k := |l.key|;
    EncodeLineLayout(l);
    assert s[pos + (k + 1 + |tb|)] == enc[k + 1 + |tb|];
    assert |enc| == k + 1 + |tb| + (if l.crlf then 2 else 1);
  }

  /**
   A well-formed line at `pos` scans to its measurement and the cursor lands
   just past its line ending, whether that ending is LF or CRLF.
   */
  lemma {:induction false} ParseRecordRoundTrip(s: seq<Byte>, segmentEnd: int, pos: nat, l: Line)
    requires WellFormedLine(l)
    requires Occurs(s, pos, EncodeLine(l)) && |s| <= segmentEnd
    ensures ParseRecord(s, segmentEnd, pos) == Ok(Parsed(MeasurementOf(l), pos + |EncodeLine(l)|))
  {
    var tStart := pos + |l.key| + 1;
    var tEnd := tStart + |TempBytes(l.tenths)|;
    KeyOfEncodedLine(s, segmentEnd, pos, l);
    TempOfEncodedLine(s, pos, l);
    EndOfEncodedLine(s, pos, l);
    var k := KeyScan(l.key, JavaHash(l.key), tStart);
    var t := Reading(l.tenths, tEnd);
    assert A: ScanKey(s, segmentEnd, pos, [], 0) == Ok(k);
    assert B: ParseTemp(s, k.cursor) == Ok(t);
    assert C: t.cursor < |s|;
    ParseRecordOfParts(s, segmentEnd, pos, k, t, pos + |EncodeLine(l)|);
  }

  /** A line ending in CRLF yields the same measurement as its LF form. */
  lemma CrlfReadsAsLf(key: seq<Byte>, tenths: int, rest: seq<Byte>)
    requires WellFormedLine(Line(key, tenths, false))
    ensures
      var crlf := EncodeLine(Line(key, tenths, true)) + rest;
      var lf := EncodeLine(Line(key, tenths, false)) + rest;
      && ParseRecord(crlf, |crlf|, 0).Ok?
      && ParseRecord(lf, |lf|, 0).Ok?
      && ParseRecord(crlf, |crlf|, 0).value.m == ParseRecord(lf, |lf|, 0).value.m
  {
    var a := Line(key, tenths, true);
    var b := Line(key, tenths, false);
    var crlf := EncodeLine(a) + rest;
    var lf := EncodeLine(b) + rest;
    ParseRecordRoundTrip(crlf, |crlf|, 0, a);
    ParseRecordRoundTrip(lf, |lf|, 0, b);
  }

  /** The first line's encoding, and the rest's, each occur where `EncodeAll` puts them. */
  lemma {:induction false} EncodeAllSplit(s: seq<Byte>, pos: nat, ls: seq<Line>)
    requires AllWellFormed(ls) && ls != []
    requires Occurs(s, pos, EncodeAll(ls))
    ensures WellFormedLine(ls[0]) && AllWellFormed(ls[1..])
    ensures |EncodeAll(ls)| == |EncodeLine(ls[0])| + |EncodeAll(ls[1..])|
    ensures Occurs(s, pos, EncodeLine(ls[0]))
    ensures Occurs(s, pos + |EncodeLine(ls[0])|, EncodeAll(ls[1..]))
  {
    EncodeAllCons(ls);
    OccursParts(s, pos, EncodeAll(ls), EncodeLine(ls[0]), EncodeAll(ls[1..]));
  }

  lemma EncodeAllCons(ls: seq<Line>)
    requires AllWellFormed(ls) && ls != []
    ensures WellFormedLine(ls[0]) && AllWellFormed(ls[1..])
    ensures EncodeAll(ls) == EncodeLine(ls[0]) + EncodeAll(ls[1..])
  {
    AllWellFormedSlice(ls, 1, |ls|);
    assert ls[1..|ls|] == ls[1..];
  }

  lemma MeasurementsCons(ls: seq<Line>)
    requires ls != []
    ensures Measurements(ls) == [MeasurementOf(ls[0])] + Measurements(ls[1..])
  {
  }

  /**
   Scanning the encoding of well-formed lines yields exactly their
   measurements, in order.
   */
  lemma {:induction false} ScanFromRoundTrip(s: seq<Byte>, segmentEnd: int, pos: nat, ls: seq<Line>)
    requires AllWellFormed(ls)
    requires Occurs(s, pos, EncodeAll(ls)) && pos + |EncodeAll(ls)| == |s| <= segmentEnd
    ensures ScanFrom(s, segmentEnd, pos) == Ok(Measurements(ls))
    decreases ls
  {
    if ls != [] {
      var next := pos + |EncodeLine(ls[0])|;
      EncodeAllSplit(s, pos, ls);
      ParseRecordRoundTrip(s, segmentEnd, pos, ls[0]);
      ScanFromRoundTrip(s, segmentEnd, next, ls[1..]);
      ScanFromStep(s, segmentEnd, pos, Parsed(MeasurementOf(ls[0]), next), Measurements(ls[1..]));
      MeasurementsCons(ls);
    }
  }

  /**
   Scanning well-formed lines and then whatever follows them fails with the
   error the scan of what follows fails with: the lines themselves parse.
   */
  lemma {:induction false} ScanLinesThenFail(s: seq<Byte>, segmentEnd: int, pos: nat, ls: seq<Line>, end: nat, e: ScanError)
    requires AllWellFormed(ls)
    requires Occurs(s, pos, EncodeAll(ls)) && |s| <= segmentEnd && end == pos + |EncodeAll(ls)|
    requires ScanFrom(s, segmentEnd, end) == Err(e)
    ensures ScanFrom(s, segmentEnd, pos) == Err(e)
    decreases ls
  {
    if ls == [] {
      assert EncodeAll(ls) == [];
    } else {
      EncodeAllSplit(s, pos, ls);
      ScanLinesThenFail(s, segmentEnd, pos + |EncodeLine(ls[0])|, ls[1..], end, e);
      ScanLineThenFail(s, segmentEnd, pos, ls[0], e);
    }
  }

  /** One well-formed line followed by a failing scan fails the same way. */
  lemma ScanLineThenFail(s: seq<Byte>, segmentEnd: int, pos: nat, l: Line, e: ScanError)
    requires WellFormedLine(l)
    requires Occurs(s, pos, EncodeLine(l)) && |s| <= segmentEnd
    requires ScanFrom(s, segmentEnd, pos + |EncodeLine(l)|) == Err(e)
    ensures ScanFrom(s, segmentEnd, pos) == Err(e)
  {
    ParseRecordRoundTrip(s, segmentEnd, pos, l);
    ScanFromErrStep(s, segmentEnd, pos, Parsed(MeasurementOf(l), pos + |EncodeLine(l)|), e);
  }

  /**
   A name cut off by the end of the first segment, where `segmentEnd` is
   the slice length: the key loop runs into `segmentEnd` without meeting
   `;`, the temperature read that follows is past the slice, and the record
   fails with `OutOfBounds`.
   */
  lemma {:induction false} TruncatedNameFails(s: seq<Byte>, pos: nat)
    requires pos < |s| && |s| - pos <= BUFFER_SIZE
    requires forall j :: pos <= j < |s| ==> s[j] != SEMICOLON
    ensures ScanFrom(s, |s|, pos) == Err(OutOfBounds)
  {
    KeyRunsToEnd(s, pos, []);
    var k := ScanKey(s, |s|, pos, [], 0).value;
    assert ParseTemp(s, k.cursor).Err?;
  }

  /** Over `;`-free bytes up to the end of the slice, the key loop stops at `segmentEnd == |s|`. */
  lemma {:induction false} KeyRunsToEnd(s: seq<Byte>, cur: nat, key: seq<Byte>)
    requires cur <= |s| && |key| + (|s| - cur) <= BUFFER_SIZE
    requires forall j :: cur <= j < |s| ==> s[j] != SEMICOLON
    ensures forall h :: ScanKey(s, |s|, cur, key, h).Ok? && ScanKey(s, |s|, cur, key, h).value.cursor == |s|
    decreases |s| - cur
  {
    if cur < |s| {
      KeyRunsToEnd(s, cur + 1, key + [s[cur]]);
    }
  }

  /**
   A name cut off by the end of a later segment: there `segmentEnd` lies
   beyond the slice, so the guard never stops the key loop, whose own read
   goes past the slice, and the record fails with `OutOfBounds`.
   */
  lemma {:induction false} InteriorTruncatedNameFails(s: seq<Byte>, segmentEnd: int, pos: nat)
    requires pos < |s| < segmentEnd && |s| - pos <= BUFFER_SIZE
    requires forall j :: pos <= j < |s| ==> s[j] != SEMICOLON
    ensures ScanFrom(s, segmentEnd, pos) == Err(OutOfBounds)
  {
    KeyReadsPastSlice(s, segmentEnd, pos, []);
  }

  /** Over `;`-free bytes up to the end of the slice, with `segmentEnd` beyond it, the key loop reads past the slice. */
  lemma {:induction false} KeyReadsPastSlice(s: seq<Byte>, segmentEnd: int, cur: nat, key: seq<Byte>)
    requires cur <= |s| < segmentEnd && |key| + (|s| - cur) <= BUFFER_SIZE
    requires forall j :: cur <= j < |s| ==> s[j] != SEMICOLON
    ensures forall h :: ScanKey(s, segmentEnd, cur, key, h) == Err(OutOfBounds)
    decreases |s| - cur
  {
    if cur < |s| {
      KeyReadsPastSlice(s, segmentEnd, cur + 1, key + [s[cur]]);
    }
  }

  /** A whole segment holding well-formed lines scans to their measurements. */
  lemma ScanSegmentRoundTrip(ls: seq<Line>, segmentEnd: int)
    requires AllWellFormed(ls)
    requires |EncodeAll(ls)| <= segmentEnd
    ensures ScanSegment(EncodeAll(ls), segmentEnd) == Ok(Measurements(ls))
  {
    ScanFromRoundTrip(EncodeAll(ls), segmentEnd, 0, ls);
  }

  lemma AllWellFormedSlice(ls: seq<Line>, a: nat, b: nat)
    requires AllWellFormed(ls) && a <= b <= |ls|
    ensures AllWellFormed(ls[a..b])
  {
    forall i | 0 <= i < b - a ensures WellFormedLine(ls[a..b][i]) {
      assert ls[a..b][i] == ls[a + i];
    }
  }

  /** The encoding of two runs of lines is the concatenation of their encodings. */
  lemma {:induction false} EncodeAllAppend(x: seq<Line>, y: seq<Line>)
    requires AllWellFormed(x) && AllWellFormed(y)
    ensures AllWellFormed(x + y)
    ensures EncodeAll(x + y) == EncodeAll(x) + EncodeAll(y)
    decreases |x|
  {
    assert AllWellFormed(x + y) by {
      forall i | 0 <= i < |x + y| ensures WellFormedLine((x + y)[i]) {
        if i < |x| {
          assert (x + y)[i] == x[i];
        } else {
          assert (x + y)[i] == y[i - |x|];
        }
      }
    }
    if x == [] {
      assert x + y == y;
    } else {
      AllWellFormedSlice(x, 1, |x|);
      assert (x + y)[1..] == x[1..] + y;
      EncodeAllAppend(x[1..], y);
      var head := EncodeLine(x[0]);
      assert EncodeAll(x + y) == head + (EncodeAll(x[1..]) + EncodeAll(y));
      assert head + (EncodeAll(x[1..]) + EncodeAll(y)) == (head + EncodeAll(x[1..])) + EncodeAll(y);
    }
  }

  /** Byte offset at which line `k` starts in the encoding (its length for `k == |ls|`). */
  ghost function Offset(ls: seq<Line>, k: nat): nat
    requires AllWellFormed(ls) && k <= |ls|
  {
    AllWellFormedSlice(ls, 0, k);
    |EncodeAll(ls[..k])|
  }

  /**
   Lines `a` to `b` occupy the bytes from `Offset(a)` to `Offset(b)`, and
   every line takes at least five bytes.
   */
  lemma LinesBetweenOffsets(ls: seq<Line>, a: nat, b: nat)
    requires AllWellFormed(ls) && a <= b <= |ls|
    ensures AllWellFormed(ls[a..b])
    ensures Offset(ls, a) + 5 * (b - a) <= Offset(ls, b) <= |EncodeAll(ls)|
    ensures Offset(ls, b) - Offset(ls, a) == |EncodeAll(ls[a..b])|
    ensures Occurs(EncodeAll(ls), Offset(ls, a), EncodeAll(ls[a..b]))
  {
    AllWellFormedSlice(ls, 0, a);
    AllWellFormedSlice(ls, a, b);
    AllWellFormedSlice(ls, b, |ls|);
    AllWellFormedSlice(ls, 0, b);
    var x, y, z := ls[..a], ls[a..b], ls[b..];
    assert ls[..b] == x + y;
    assert ls == (x + y) + z;
    EncodeAllAppend(x, y);
    EncodeAllAppend(x + y, z);
    EncodeAllLength(y);
    OccursMiddle(EncodeAll(x), EncodeAll(y), EncodeAll(z));
  }

  lemma {:induction false} EncodeAllLength(ls: seq<Line>)
    requires AllWellFormed(ls)
    ensures |EncodeAll(ls)| >= 5 * |ls|
    decreases |ls|
  {
    if ls != [] {
      AllWellFormedSlice(ls, 1, |ls|);
      EncodeAllLength(ls[1..]);
    }
  }

  /** In a line's encoding the only newline is the last byte. */
  lemma NewlineOnlyAtEnd(l: Line)
    requires WellFormedLine(l)
    ensures var enc := EncodeLine(l);
      forall j :: 0 <= j < |enc| - 1 ==> enc[j] != NEWLINE
  {
    var enc := EncodeLine(l);
    var tb := TempBytes(l.tenths);
    EncodeLineLayout(l);
    TempBytesWellFormed(l.tenths);
    var k := |l.key|;
    forall j | 0 <= j < |enc| - 1 ensures enc[j] != NEWLINE {
      if j < k {
        assert enc[j] == l.key[j] && l.key[j] in l.key;
      } else if k < j < k + 1 + |tb| {
        assert enc[j] == tb[j - k - 1];
      }
    }
  }

  /** The bytes between two line offsets are the encoding of the lines between them. */
  lemma SliceOfLines(ls: seq<Line>, a: nat, b: nat)
    requires AllWellFormed(ls) && a <= b <= |ls|
    ensures AllWellFormed(ls[a..b])
    ensures Offset(ls, a) <= Offset(ls, b) <= |EncodeAll(ls)|
    ensures EncodeAll(ls)[Offset(ls, a)..Offset(ls, b)] == EncodeAll(ls[a..b])
  {
    LinesBetweenOffsets(ls, a, b);
    OccursSlice(EncodeAll(ls), Offset(ls, a), EncodeAll(ls[a..b]));
  }

  /** Line `k` of a file occupies exactly the bytes between its offset and the next. */
  lemma OneLine(ls: seq<Line>, k: nat)
    requires AllWellFormed(ls) && k < |ls|
    ensures Offset(ls, k) + |EncodeLine(ls[k])| == Offset(ls, k + 1) <= |EncodeAll(ls)|
    ensures EncodeAll(ls)[Offset(ls, k)..Offset(ls, k + 1)] == EncodeLine(ls[k])
  {
    SliceOfLines(ls, k, k + 1);
    assert ls[k..k + 1] == [ls[k]];
    assert [ls[k]][1..] == [];
  }

  lemma MeasurementsSlice(ls: seq<Line>, a: nat, b: nat)
    requires a <= b <= |ls|
    ensures Measurements(ls[a..b]) == Measurements(ls)[a..b]
  {
  }

  /** Scanning the bytes of lines `a` to `b` of a file yields their measurements. */
  lemma ScanLines(ls: seq<Line>, a: nat, b: nat)
    requires AllWellFormed(ls) && a <= b <= |ls|
    ensures Offset(ls, a) <= Offset(ls, b) <= |EncodeAll(ls)|
    ensures ScanSegment(EncodeAll(ls)[Offset(ls, a)..Offset(ls, b)], Offset(ls, b)) == Ok(Measurements(ls)[a..b])
  {
    SliceOfLines(ls, a, b);
    LinesBetweenOffsets(ls, a, b);
    ScanSegmentRoundTrip(ls[a..b], Offset(ls, b));
    MeasurementsSlice(ls, a, b);
  }
}

=== FILE: output.dfy ===
/**
 The printed result: the table's names sorted, each entry rendered as
 `name=<values>`, entries separated by `", "` and the whole wrapped in
 braces and ended by a newline. The text of a statistic (three rounded
 decimals) is floating-point formatting and is a parameter here.
 */
module Output {
  import opened JavaInt
  import opened Scanner
  import opened Aggregation

  const OPEN_BRACE: Byte := 123
  const CLOSE_BRACE: Byte := 125
  const EQUALS: Byte := 61
  const COMMA: Byte := 44
  const SPACE: Byte := 32

  /**
   The order `String.compareTo` puts names in when their bytes are ASCII:
   lexicographic on unsigned bytes, a proper prefix first.
   */
  predicate LexLess(a: seq<Byte>, b: seq<Byte>)
    decreases |a|
  {
    if a == [] then b != []
    else if b == [] then false
    else a[0] < b[0] || (a[0] == b[0] && LexLess(a[1..], b[1..]))
  }

  /** A proper prefix sorts first, and nothing sorts before one of its own prefixes. */
  lemma {:induction false} PrefixSortsFirst(a: seq<Byte>, b: seq<Byte>)
    ensures |a| < |b| && a == b[..|a|] ==> LexLess(a, b)
    ensures |b| <= |a| && b == a[..|b|] ==> !LexLess(a, b)
    decreases |a|
  {
    if a != [] && b != [] && a[0] == b[0] {
      PrefixSortsFirst(a[1..], b[1..]);
      if |a| < |b| && a == b[..|a|] {
        assert a[1..] == b[..|a|][1..] == b[1..][..|a| - 1];
      }
      if |b| <= |a| && b == a[..|b|] {
        assert b[1..] == a[..|b|][1..] == a[1..][..|b| - 1];
      }
    }
  }

  /** `a` and `b` agree before index `k`, where `a` has the smaller byte. */
  ghost predicate FirstDifferenceBelow(a: seq<Byte>, b: seq<Byte>, k: int) {
    0 <= k < |a| && k < |b| && a[..k] == b[..k] && a[k] < b[k]
  }

  /** With equal first bytes, a first difference at `k + 1` is one at `k` of the tails. */
  lemma FirstDifferenceTail(a: seq<Byte>, b: seq<Byte>, k: int)
    requires a != [] && b != [] && a[0] == b[0]
    ensures FirstDifferenceBelow(a, b, k + 1) <==> FirstDifferenceBelow(a[1..], b[1..], k)
  {
    if 0 <= k && k + 1 <= |a| && k + 1 <= |b| {
      assert a[..k + 1] == [a[0]] + a[1..][..k] && b[..k + 1] == [b[0]] + b[1..][..k];
    }
  }

  /** With equal first bytes, `a` is a proper prefix of `b` exactly when the tails are. */
  lemma ProperPrefixTail(a: seq<Byte>, b: seq<Byte>)
    requires a != [] && b != [] && a[0] == b[0]
    ensures (|a| < |b| && a == b[..|a|]) <==> (|a| - 1 < |b| - 1 && a[1..] == b[1..][..|a| - 1])
  {
    if |a| < |b| {
      assert a == [a[0]] + a[1..];
      assert b[..|a|] == [b[0]] + b[1..][..|a| - 1];
    }
  }

  /**
   The order spelled out: `a` sorts before `b` exactly when it is a proper
   prefix of `b`, or at the first index where they differ its byte is smaller.
   */
  lemma {:induction false} LexLessFirstDifference(a: seq<Byte>, b: seq<Byte>)
    ensures LexLess(a, b) <==> (|a| < |b| && a == b[..|a|]) || exists k :: FirstDifferenceBelow(a, b, k)
    decreases |a|
  {
    if a != [] && b != [] {
      if a[0] < b[0] {
        assert FirstDifferenceBelow(a, b, 0);
      } else if a[0] == b[0] {
        LexLessFirstDifference(a[1..], b[1..]);
        ProperPrefixTail(a, b);
        if exists k :: FirstDifferenceBelow(a[1..], b[1..], k) {
          var k :| FirstDifferenceBelow(a[1..], b[1..], k);
          FirstDifferenceTail(a, b, k);
        }
        if exists k :: FirstDifferenceBelow(a, b, k) {
          var k :| FirstDifferenceBelow(a, b, k);
          FirstDifferenceTail(a, b, k - 1);
        }
      }
    }
  }

  lemma {:induction false} LexLessIrreflexive(a: seq<Byte>)
    ensures !LexLess(a, a)
    decreases |a|
  {
    if a != [] {
      LexLessIrreflexive(a[1..]);
    }
  }

  lemma {:induction false} LexLessTransitive(a: seq<Byte>, b: seq<Byte>, c: seq<Byte>)
    requires LexLess(a, b) && LexLess(b, c)
    ensures LexLess(a, c)
    decreases |a|
  {
    if a != [] && a[0] == b[0] && b[0] == c[0] {
      LexLessTransitive(a[1..], b[1..], c[1..]);
    }
  }

  /** Two different names are always ordered one way or the other. */
  lemma {:induction false} LexLessTotal(a: seq<Byte>, b: seq<Byte>)
    requires a != b
    ensures LexLess(a, b) || LexLess(b, a)
    decreases |a|
  {
    if a != [] && b != [] && a[0] == b[0] {
      assert a == [a[0]] + a[1..] && b == [b[0]] + b[1..];
      LexLessTotal(a[1..], b[1..]);
    }
  }

  lemma LexLessAsymmetric(a: seq<Byte>, b: seq<Byte>)
    requires LexLess(a, b)
    ensures !LexLess(b, a)
  {
    if LexLess(b, a) {
      LexLessTransitive(a, b, a);
      LexLessIrreflexive(a);
    }
  }

  /** Entries in non-decreasing name order. */
  ghost predicate Sorted(es: seq<Entry>) {
    forall i, j :: 0 <= i < j < |es| ==> !LexLess(es[j].name, es[i].name)
  }

  /** Entries in strictly increasing name order: sorted, and no name twice. */
  ghost predicate StrictlySorted(es: seq<Entry>) {
    forall i, j :: 0 <= i < j < |es| ==> LexLess(es[i].name, es[j].name)
  }

  /** Puts `e` in front of the first entry whose name does not sort before its own. */
  function Insert(e: Entry, es: seq<Entry>): (r: seq<Entry>)
    ensures multiset(r) == multiset(es) + multiset{e}
  {
    if es == [] then [e]
    else if LexLess(es[0].name, e.name) then
      assert es == [es[0]] + es[1..];
      [es[0]] + Insert(e, es[1..])
    else [e] + es
  }

  /** Everything in the tail, with `e` inserted, sorts no earlier than a head smaller than `e`. */
  lemma HeadBelowInserted(e: Entry, es: seq<Entry>)
    requires es != [] && Sorted(es) && LexLess(es[0].name, e.name)
    ensures forall x :: x in Insert(e, es[1..]) ==> !LexLess(x.name, es[0].name)
  {
    var rest := Insert(e, es[1..]);
    forall x | x in rest ensures !LexLess(x.name, es[0].name) {
      assert x in multiset(rest);
      if x == e {
        LexLessAsymmetric(es[0].name, e.name);
      } else {
        assert x in multiset(es[1..]);
        var k :| 0 <= k < |es[1..]| && es[1..][k] == x;
        assert es[k + 1] == x;
      }
    }
  }

  /** Inserting after a smaller head keeps the head in front of everything. */
  lemma InsertAfterHead(e: Entry, es: seq<Entry>)
    requires es != [] && Sorted(es) && LexLess(es[0].name, e.name)
    requires Sorted(Insert(e, es[1..]))
    ensures Sorted(Insert(e, es))
  {
    var rest := Insert(e, es[1..]);
    assert Insert(e, es) == [es[0]] + rest;
    HeadBelowInserted(e, es);
    SortedCons(es[0], rest);
  }

  /** A head that sorts no later than anything in a sorted tail gives a sorted sequence. */
  lemma SortedCons(h: Entry, rest: seq<Entry>)
    requires Sorted(rest)
    requires forall x :: x in rest ==> !LexLess(x.name, h.name)
    ensures Sorted([h] + rest)
  {
    var r := [h] + rest;
    forall i, j | 0 <= i < j < |r| ensures !LexLess(r[j].name, r[i].name) {
      assert r[j] == rest[j - 1];
      if i == 0 {
        assert r[j] in rest;
      } else {
        assert r[i] == rest[i - 1];
      }
    }
  }

  /** Inserting in front of a head that does not sort before `e` keeps the order. */
  lemma InsertBeforeHead(e: Entry, es: seq<Entry>)
    requires es != [] && Sorted(es) && !LexLess(es[0].name, e.name)
    ensures Sorted(Insert(e, es))
  {
    var r := Insert(e, es);
    assert r == [e] + es;
    forall j | 0 < j < |r| ensures !LexLess(r[j].name, e.name) {
      assert r[j] == es[j - 1];
      if LexLess(r[j].name, e.name) && j - 1 > 0 && es[0].name != r[j].name {
        LexLessTotal(es[0].name, r[j].name);
        LexLessTransitive(es[0].name, r[j].name, e.name);
      }
    }
    forall i, j | 0 < i < j < |r| ensures !LexLess(r[j].name, r[i].name) {
      assert r[i] == es[i - 1] && r[j] == es[j - 1];
    }
  }

  lemma {:induction false} InsertSorted(e: Entry, es: seq<Entry>)
    requires Sorted(es)
    ensures Sorted(Insert(e, es))
    decreases |es|
  {
    if es != [] {
      if LexLess(es[0].name, e.name) {
        assert Sorted(es[1..]) by {
          forall i, j | 0 <= i < j < |es[1..]| ensures !LexLess(es[1..][j].name, es[1..][i].name) {
            assert es[1..][i] == es[i + 1] && es[1..][j] == es[j + 1];
          }
        }
        InsertSorted(e, es[1..]);
        InsertAfterHead(e, es);
      } else {
        InsertBeforeHead(e, es);
      }
    }
  }

  /** Insertion sort by name. */
  function SortEntries(es: seq<Entry>): (r: seq<Entry>)
    ensures multiset(r) == multiset(es)
    decreases |es|
  {
    if es == [] then []
    else
      assert es == [es[0]] + es[1..];
      Insert(es[0], SortEntries(es[1..]))
  }

  lemma {:induction false} SortEntriesSorted(es: seq<Entry>)
    ensures Sorted(SortEntries(es))
    decreases |es|
  {
    if es != [] {
      SortEntriesSorted(es[1..]);
      InsertSorted(es[0], SortEntries(es[1..]));
    }
  }

  /** A sorted sequence without two entries of the same name is strictly sorted. */
  lemma SortedDistinctIsStrict(es: seq<Entry>)
    requires Sorted(es)
    requires forall i, j :: 0 <= i < j < |es| ==> es[i].name != es[j].name
    ensures StrictlySorted(es)
  {
    forall i, j | 0 <= i < j < |es| ensures LexLess(es[i].name, es[j].name) {
      LexLessTotal(es[i].name, es[j].name);
    }
  }

  /** Two strictly sorted sequences holding the same entries are the same sequence. */
  lemma {:induction false} StrictlySortedUnique(a: seq<Entry>, b: seq<Entry>)
    requires StrictlySorted(a) && StrictlySorted(b)
    requires forall x :: x in a <==> x in b
    ensures a == b
    decreases |a|
  {
    if b != [] {
      assert b[0] in b;
    }
    if a != [] {
      assert b != [] by {
        assert a[0] in b;
      }
      if a[0] != b[0] {
        assert a[0] in b && b[0] in a;
        var k :| 0 <= k < |b| && b[k] == a[0];
        var m :| 0 <= m < |a| && a[m] == b[0];
        assert LexLess(b[0].name, a[0].name);
        assert LexLess(a[0].name, b[0].name);
        LexLessAsymmetric(a[0].name, b[0].name);
      }
      forall x ensures x in a[1..] <==> x in b[1..] {
        if x in a[1..] {
          var i :| 0 <= i < |a[1..]| && a[1..][i] == x;
          assert a[i + 1] == x && LexLess(a[0].name, x.name);
          LexLessIrreflexive(x.name);
          assert x in a && x in b;
          var j :| 0 <= j < |b| && b[j] == x;
          assert j != 0;
          assert b[1..][j - 1] == x;
        }
        if x in b[1..] {
          var i :| 0 <= i < |b[1..]| && b[1..][i] == x;
          assert b[i + 1] == x && LexLess(b[0].name, x.name);
          LexLessIrreflexive(x.name);
          assert x in b && x in a;
          var j :| 0 <= j < |a| && a[j] == x;
          assert j != 0;
          assert a[1..][j - 1] == x;
        }
      }
      StrictlySortedUnique(a[1..], b[1..]);
      assert a == [a[0]] + a[1..] && b == [b[0]] + b[1..];
    }
  }

  /**
   `hs` lists every hash of the table exactly once, in the unspecified order
   in which the name map's key set is iterated.
   */
  ghost predicate Enumerates(hs: seq<int>, t: Table) {
    && (forall i :: 0 <= i < |hs| ==> hs[i] in t)
    && (forall h :: h in t ==> h in hs)
    && (forall i, j :: 0 <= i < j < |hs| ==> hs[i] != hs[j])
  }

  /** The table's entries in sorted name order, as the printing loop visits them. */
  function Listing(t: Table, hs: seq<int>): (r: seq<Entry>)
    requires forall i :: 0 <= i < |hs| ==> hs[i] in t
    ensures Sorted(r) && multiset(r) == multiset(Rows(t, hs))
  {
    SortEntriesSorted(Rows(t, hs));
    SortEntries(Rows(t, hs))
  }

  /** The entries in key-set order, before sorting. */
  function Rows(t: Table, hs: seq<int>): (es: seq<Entry>)
    requires forall i :: 0 <= i < |hs| ==> hs[i] in t
    ensures |es| == |hs| && forall i :: 0 <= i < |hs| ==> es[i] == t[hs[i]]
  {
    seq(|hs|, i requires 0 <= i < |hs| => t[hs[i]])
  }

  /** The unsorted rows hold every entry once, each found again under its name's hash. */
  lemma RowsOfTable(t: Table, hs: seq<int>)
    requires Valid(t) && Enumerates(hs, t)
    ensures var es := Rows(t, hs);
      && Distinct(es)
      && (forall e :: e in es ==> JavaHash(e.name) in t && t[JavaHash(e.name)] == e)
      && (forall h :: h in t ==> t[h] in es)
  {
    var es := Rows(t, hs);
    forall i, j | 0 <= i < j < |es| ensures es[i] != es[j] {
      assert es[i] == t[hs[i]] && es[j] == t[hs[j]] && hs[i] != hs[j];
      assert JavaHash(es[i].name) == hs[i] && JavaHash(es[j].name) == hs[j];
    }
    forall e | e in es ensures JavaHash(e.name) in t && t[JavaHash(e.name)] == e {
      var k :| 0 <= k < |es| && es[k] == e;
      assert hs[k] in t && e == t[hs[k]];
      assert JavaHash(e.name) == hs[k];
    }
    forall h | h in t ensures t[h] in es {
      var k :| 0 <= k < |hs| && hs[k] == h;
      assert es[k] == t[h];
    }
  }

  ghost predicate Distinct<T>(s: seq<T>) {
    forall i, j :: 0 <= i < j < |s| ==> s[i] != s[j]
  }

  lemma {:induction false} DistinctCount<T>(s: seq<T>, x: T)
    requires Distinct(s)
    ensures multiset(s)[x] <= 1
    decreases |s|
  {
    if s != [] {
      assert s == [s[0]] + s[1..];
      assert Distinct(s[1..]) by {
        forall i, j | 0 <= i < j < |s[1..]| ensures s[1..][i] != s[1..][j] {
          assert s[1..][i] == s[i + 1] && s[1..][j] == s[j + 1];
        }
      }
      DistinctCount(s[1..], x);
      if s[0] == x {
        forall k | 0 <= k < |s[1..]| ensures s[1..][k] != x {
          assert s[1..][k] == s[k + 1];
        }
      }
    }
  }

  /** A permutation of a sequence without repeats has none either. */
  lemma DistinctPermutation<T>(a: seq<T>, b: seq<T>)
    requires Distinct(a) && multiset(a) == multiset(b)
    ensures Distinct(b)
  {
    forall i, j | 0 <= i < j < |b| ensures b[i] != b[j] {
      if b[i] == b[j] {
        var x := b[i];
        assert b == b[..j] + b[j..];
        assert b[..j][i] == x && b[j..][0] == x;
        assert multiset(b[..j])[x] >= 1 && multiset(b[j..])[x] >= 1;
        DistinctCount(a, x);
      }
    }
  }

  /**
   The listing holds every entry of the table and nothing else, names strictly
   increasing (so each name once), and looking a listed name up by its hash,
   as the name map does, finds that very entry.
   */
  lemma ListingOrdered(t: Table, hs: seq<int>)
    requires Valid(t) && Enumerates(hs, t)
    ensures var r := Listing(t, hs);
      && StrictlySorted(r)
      && (forall h :: h in t ==> t[h] in r)
      && (forall i :: 0 <= i < |r| ==> JavaHash(r[i].name) in t && t[JavaHash(r[i].name)] == r[i])
  {
    var es := Rows(t, hs);
    var r := Listing(t, hs);
    SortEntriesSorted(es);
    RowsOfTable(t, hs);
    DistinctPermutation(es, r);
    forall i | 0 <= i < |r| ensures JavaHash(r[i].name) in t && t[JavaHash(r[i].name)] == r[i] {
      assert r[i] in multiset(es);
      assert r[i] in es;
    }
    forall i, j | 0 <= i < j < |r| ensures r[i].name != r[j].name {
      assert r[i] != r[j];
      assert t[JavaHash(r[i].name)] == r[i] && t[JavaHash(r[j].name)] == r[j];
    }
    SortedDistinctIsStrict(r);
    forall h | h in t ensures t[h] in r {
      assert t[h] in multiset(es);
      assert t[h] in multiset(r);
    }
  }

  /** The printed order does not depend on the order the key set is iterated in. */
  lemma ListingDeterministic(t: Table, hs1: seq<int>, hs2: seq<int>)
    requires Valid(t) && Enumerates(hs1, t) && Enumerates(hs2, t)
    ensures Listing(t, hs1) == Listing(t, hs2)
  {
    var r1 := Listing(t, hs1);
    var r2 := Listing(t, hs2);
    ListingOrdered(t, hs1);
    ListingOrdered(t, hs2);
    forall x ensures x in r1 <==> x in r2 {
      if x in r1 {
        var i :| 0 <= i < |r1| && r1[i] == x;
      }
      if x in r2 {
        var i :| 0 <= i < |r2| && r2[i] == x;
      }
    }
    StrictlySortedUnique(r1, r2);
  }

  const SEPARATOR: seq<Byte> := [COMMA, SPACE]

  /** `name=<values>` for one entry, the values text supplied by the caller. */
  function Item(e: Entry, valueText: Stat -> seq<Byte>): seq<Byte> {
    e.name + [EQUALS] + valueText(e.stat)
  }

  /** The items of `es`, a separator between consecutive ones. */
  function Joined(es: seq<Entry>, valueText: Stat -> seq<Byte>): seq<Byte>
    decreases |es|
  {
    if es == [] then []
    else if |es| == 1 then Item(es[0], valueText)
    else Joined(es[..|es| - 1], valueText) + SEPARATOR + Item(es[|es| - 1], valueText)
  }

  /**
   Joining two non-empty runs puts exactly one separator between them: there
   is a separator between any two consecutive items and none at either end.
   */
  lemma {:induction false} JoinedAppend(a: seq<Entry>, b: seq<Entry>, valueText: Stat -> seq<Byte>)
    requires a != [] && b != []
    ensures Joined(a + b, valueText) == Joined(a, valueText) + SEPARATOR + Joined(b, valueText)
    decreases |b|
  {
    var ab := a + b;
    var init := b[..|b| - 1];
    var last := Item(b[|b| - 1], valueText);
    assert ab[..|ab| - 1] == a + init;
    assert ab[|ab| - 1] == b[|b| - 1];
    assert Joined(ab, valueText) == Joined(a + init, valueText) + SEPARATOR + last;
    if |b| == 1 {
      assert a + init == a;
    } else {
      JoinedAppend(a, init, valueText);
      var ja := Joined(a, valueText);
      var ji := Joined(init, valueText);
      assert Joined(b, valueText) == ji + SEPARATOR + last;
      assert (ja + SEPARATOR + ji) + SEPARATOR + last == ja + SEPARATOR + (ji + SEPARATOR + last);
    }
  }

  /**
   `toString`: an opening brace, then for each name in turn its item followed
   by `", "` unless it is the last, then a closing brace and a newline.
   */
  method Render(es: seq<Entry>, valueText: Stat -> seq<Byte>) returns (text: seq<Byte>)
    ensures text == [OPEN_BRACE] + Joined(es, valueText) + [CLOSE_BRACE, NEWLINE]
  {
    text := [OPEN_BRACE];
    var i := 0;
    while i < |es|
      invariant 0 <= i <= |es|
      invariant text == [OPEN_BRACE] + Joined(es[..i], valueText) + (if 0 < i < |es| then SEPARATOR else [])
    {
      assert es[..i + 1][..i] == es[..i];
      assert es[..i + 1][i] == es[i];
      text := text + Item(es[i], valueText);
      if i != |es| - 1 {
        text := text + SEPARATOR;
      }
      i := i + 1;
    }
    assert es[..|es|] == es;
    text := text + [CLOSE_BRACE, NEWLINE];
  }

  /**
   `toString` of a whole table: whichever order the key set is iterated in,
   the text is the braced, separated items of every entry, in strictly
   increasing name order, each with the statistic stored under its name.
   */
  method ToString(t: Table, hs: seq<int>, valueText: Stat -> seq<Byte>) returns (text: seq<Byte>)
    requires Valid(t) && Enumerates(hs, t)
    ensures StrictlySorted(Listing(t, hs))
    ensures forall h :: h in t ==> t[h] in Listing(t, hs)
    ensures forall e :: e in Listing(t, hs) ==> JavaHash(e.name) in t && t[JavaHash(e.name)] == e
    ensures forall hs2 :: Enumerates(hs2, t) ==>
      text == [OPEN_BRACE] + Joined(Listing(t, hs2), valueText) + [CLOSE_BRACE, NEWLINE]
  {
    var es := Listing(t, hs);
    ListingOrdered(t, hs);
    forall e | e in es ensures JavaHash(e.name) in t && t[JavaHash(e.name)] == e {
      var i :| 0 <= i < |es| && es[i] == e;
    }
    text := Render(es, valueText);
    forall hs2 | Enumerates(hs2, t)
      ensures text == [OPEN_BRACE] + Joined(Listing(t, hs2), valueText) + [CLOSE_BRACE, NEWLINE]
    {
      ListingDeterministic(t, hs, hs2);
    }
  }
}

=== FILE: pipeline.dfy ===
/**
 The whole computation: plan the segments, let one worker per segment scan
 its slice and fold the records into the shared table, and hand the table
 to the printer. The workers run concurrently in the program; here they run
 one after another in segment order.
 */
module Pipeline {
  import opened JavaInt
  import opened Segments
  import opened Scanner
  import opened Aggregation
  import opened LineFormat

  /** Every segment is a byte range inside the file. */
  ghost predicate InFile(segs: seq<Segment>, fileSize: nat) {
    forall i :: 0 <= i < |segs| ==> segs[i].start <= segs[i].end <= fileSize
  }

  /** Runs the workers for `segs` in order on top of `t`; the first failing worker's error ends the run. */
  function Aggregate(f: seq<Byte>, segs: seq<Segment>, t: Table): (r: Result<Table>)
    requires InFile(segs, |f|)
    ensures r.Ok? ==> t.Keys <= r.value.Keys
    decreases |segs|
  {
    if segs == [] then Ok(t)
    else
      var s := segs[0];
      match ScanSegment(f[s.start..s.end], s.end)
      case Err(e) => Err(e)
      case Ok(ms) => Aggregate(f, segs[1..], PutAll(t, ms))
  }

  /** A partition of the file keeps every segment inside it. */
  lemma PartitionInFile(segs: seq<Segment>, fileSize: nat)
    requires Partitions(segs, fileSize)
    ensures InFile(segs, fileSize)
  {
    forall i | 0 <= i < |segs| ensures segs[i].end <= fileSize {
      var k := i;
      while k < |segs| - 1
        invariant i <= k <= |segs| - 1
        invariant segs[i].end <= segs[k].end
      {
        k := k + 1;
      }
    }
  }

  /**
   The program for a file and a core count. Whatever the input, a table
   that a run produces satisfies the table invariant.
   */
  function Run(f: seq<Byte>, cores: nat): (r: Result<Table>)
    requires cores >= 1
    ensures r.Ok? ==> Valid(r.value)
  {
    SegmentsPartition(f, cores);
    PartitionInFile(GetFileSegments(f, cores), |f|);
    AggregateValid(f, GetFileSegments(f, cores), EmptyTable);
    Aggregate(f, GetFileSegments(f, cores), EmptyTable)
  }

  /** An empty file is one empty segment, and the run reports no stations. */
  lemma EmptyFileRun(cores: nat)
    requires cores >= 1
    ensures Run([], cores) == Ok(EmptyTable)
  {
    var f: seq<Byte> := [];
    SegmentsPartition(f, cores);
    PartitionInFile(GetFileSegments(f, cores), 0);
    assert f[0..0] == [] && ScanSegment([], 0) == Ok([]);
    AggregateStep(f, GetFileSegments(f, cores), EmptyTable, []);
    assert GetFileSegments(f, cores)[1..] == [];
  }

  /** Whatever the input, a table that a run produces satisfies the table invariant. */
  lemma {:induction false} AggregateValid(f: seq<Byte>, segs: seq<Segment>, t: Table)
    requires InFile(segs, |f|) && Valid(t)
    ensures Aggregate(f, segs, t).Ok? ==> Valid(Aggregate(f, segs, t).value)
    decreases |segs|
  {
    if segs != [] {
      var s := segs[0];
      var scan := ScanSegment(f[s.start..s.end], s.end);
      if scan.Ok? {
        ScanSegmentSound(f[s.start..s.end], s.end);
        PutAllValid(t, scan.value);
        AggregateValid(f, segs[1..], PutAll(t, scan.value));
      }
    }
  }


  /** A file made of well-formed lines, none longer than the planner's lookahead window. */
  ghost predicate ShortLines(ls: seq<Line>) {
    && AllWellFormed(ls)
    && (forall i :: 0 <= i < |ls| ==> |EncodeLine(ls[i])| <= WINDOW)
  }

  /** `p` is the offset of a line start, or the end of the file. */
  ghost predicate AtLineStart(ls: seq<Line>, p: nat)
    requires AllWellFormed(ls)
  {
    exists k :: 0 <= k <= |ls| && Offset(ls, k) == p
  }

  /** The line a byte inside the file belongs to. */
  lemma {:induction false} LineContaining(ls: seq<Line>, c: nat) returns (k: nat)
    requires AllWellFormed(ls) && c < |EncodeAll(ls)|
    ensures k < |ls| && Offset(ls, k) <= c < Offset(ls, k + 1)
  {
    OffsetEnds(ls, 0);
    k := 0;
    while Offset(ls, k + 1) <= c
      invariant k < |ls| && Offset(ls, k) <= c
      decreases |ls| - k
    {
      k := k + 1;
    }
  }

  /** Bytes that hold one newline-terminated record have no newline before its end. */
  lemma NewlineEndedSlice(f: seq<Byte>, start: nat, end: nat, c: nat, enc: seq<Byte>)
    requires start <= c < end <= |f| && f[start..end] == enc
    requires enc[|enc| - 1] == NEWLINE
    requires forall j :: 0 <= j < |enc| - 1 ==> enc[j] != NEWLINE
    ensures f[end - 1] == NEWLINE && NewlineFree(f, c, end - 1)
  {
    assert f[end - 1] == enc[|enc| - 1];
    forall j | c <= j < end - 1 ensures f[j] != NEWLINE {
      assert f[j] == enc[j - start];
    }
  }

  /** The first newline at or after a byte is the last byte of that byte's line. */
  lemma NextNewline(ls: seq<Line>, c: nat, k: nat)
    requires AllWellFormed(ls) && k < |ls| && Offset(ls, k) <= c < Offset(ls, k + 1)
    ensures Offset(ls, k + 1) <= |EncodeAll(ls)|
    ensures EncodeAll(ls)[Offset(ls, k + 1) - 1] == NEWLINE
    ensures NewlineFree(EncodeAll(ls), c, Offset(ls, k + 1) - 1)
  {
    OneLine(ls, k);
    NewlineOnlyAtEnd(ls[k]);
    NewlineEndedSlice(EncodeAll(ls), Offset(ls, k), Offset(ls, k + 1), c, EncodeLine(ls[k]));
  }

  /** A first newline found by scanning is the known one. */
  lemma FirstNewlineIs(f: seq<Byte>, from: nat, to: nat, p: nat)
    requires from <= p < to <= |f|
    requires f[p] == NEWLINE && NewlineFree(f, from, p)
    ensures FirstNewline(f, from, to) == p
  {
  }

  /**
   A cut strictly inside a file of short lines is moved to the start of
   the next line: the window always reaches that line's newline.
   */
  lemma SnapToLineStart(ls: seq<Line>, i: int, skip: int, c: nat, limit: nat)
    requires ShortLines(ls) && i != skip
    requires 0 < c < |EncodeAll(ls)| && c < limit <= |EncodeAll(ls)|
    requires limit - c >= WINDOW || limit == |EncodeAll(ls)|
    ensures AtLineStart(ls, FindSegment(EncodeAll(ls), i, skip, c, limit))
  {
    var f := EncodeAll(ls);
    var k := LineContaining(ls, c);
    NextNewline(ls, c, k);
    OneLine(ls, k);
    var p := Offset(ls, k + 1) - 1;
    var w := WindowEnd(c, limit);
    assert p < w;
    FirstNewlineIs(f, c, w, p);
    assert FindSegment(f, i, skip, c, limit) == Offset(ls, k + 1);
  }

  /** The start of every planned segment falls on a line start. */
  lemma SegmentStartAtLineStart(ls: seq<Line>, n: nat, i: nat)
    requires ShortLines(ls) && 0 <= i < n && |EncodeAll(ls)| / n >= MIN_SEGMENT_SIZE
    ensures AtLineStart(ls, SegmentAt(EncodeAll(ls), n, i).start)
  {
    var f := EncodeAll(ls);
    var size := |f| / n;
    NaiveCutsInFile(|f|, n, i);
    var naiveStart := i * size;
    var naiveEnd := if i == n - 1 then |f| else naiveStart + size;
    if i == 0 {
      LinesBetweenOffsets(ls, 0, 0);
    } else {
      NaiveCutsInFile(|f|, n, n - 1);
      MulMonotone(i, n - 1, size);
      MulMonotone(1, i, size);
      SnapToLineStart(ls, i, 0, naiveStart, naiveEnd);
    }
  }

  /** The end of every planned segment falls on a line start. */
  lemma SegmentEndAtLineStart(ls: seq<Line>, n: nat, i: nat)
    requires ShortLines(ls) && 0 <= i < n && |EncodeAll(ls)| / n >= MIN_SEGMENT_SIZE
    ensures AtLineStart(ls, SegmentAt(EncodeAll(ls), n, i).end)
  {
    var f := EncodeAll(ls);
    if i == n - 1 {
      OffsetEnds(ls, 0);
      assert SegmentAt(f, n, i).end == Offset(ls, |ls|);
    } else {
      AdjacentSegmentsMeet(f, n, i);
      SegmentStartAtLineStart(ls, n, i + 1);
    }
  }

  /** Every segment of the plan for a file of short lines starts and ends on a line start. */
  ghost predicate OnLineStarts(ls: seq<Line>, segs: seq<Segment>)
    requires AllWellFormed(ls)
  {
    forall i :: 0 <= i < |segs| ==> AtLineStart(ls, segs[i].start) && AtLineStart(ls, segs[i].end)
  }

  lemma PlanOnLineStarts(ls: seq<Line>, n: nat)
    requires ShortLines(ls) && n >= 1
    ensures OnLineStarts(ls, GetFileSegments(EncodeAll(ls), n))
  {
    var f := EncodeAll(ls);
    LinesBetweenOffsets(ls, 0, 0);
    LinesBetweenOffsets(ls, 0, |ls|);
    assert ls[..|ls|] == ls;
    if |f| / n >= MIN_SEGMENT_SIZE {
      forall i | 0 <= i < n
        ensures AtLineStart(ls, GetFileSegments(f, n)[i].start)
        ensures AtLineStart(ls, GetFileSegments(f, n)[i].end)
      {
        SegmentStartAtLineStart(ls, n, i);
        SegmentEndAtLineStart(ls, n, i);
      }
    }
  }

  lemma PrefixSplit<T>(s: seq<T>, a: nat, b: nat)
    requires a <= b <= |s|
    ensures s[..a] + s[a..b] == s[..b]
  {
  }

  /** One worker's turn: its scan succeeds and its measurements are folded in. */
  lemma AggregateStep(f: seq<Byte>, segs: seq<Segment>, t: Table, ms: seq<Measurement>)
    requires InFile(segs, |f|) && segs != []
    requires ScanSegment(f[segs[0].start..segs[0].end], segs[0].end) == Ok(ms)
    ensures InFile(segs[1..], |f|)
    ensures Aggregate(f, segs, t) == Aggregate(f, segs[1..], PutAll(t, ms))
  {
    assert InFile(segs[1..], |f|) by {
      forall i | 0 <= i < |segs| - 1 ensures segs[1..][i].start <= segs[1..][i].end <= |f| {
        assert segs[1..][i] == segs[i + 1];
      }
    }
  }

  /** Each segment starts where the previous one ended. */
  ghost predicate Contiguous(segs: seq<Segment>) {
    forall i :: 0 <= i < |segs| - 1 ==> segs[i].end == segs[i + 1].start
  }

  /** Dropping the first segment keeps a plan contiguous, in the file and on line starts. */
  lemma PlanTail(ls: seq<Line>, segs: seq<Segment>)
    requires AllWellFormed(ls) && |segs| > 1
    requires InFile(segs, |EncodeAll(ls)|) && OnLineStarts(ls, segs) && Contiguous(segs)
    ensures InFile(segs[1..], |EncodeAll(ls)|) && OnLineStarts(ls, segs[1..]) && Contiguous(segs[1..])
    ensures segs[1..][0].start == segs[0].end
  {
    var rest := segs[1..];
    forall i | 0 <= i < |rest|
      ensures rest[i].start <= rest[i].end <= |EncodeAll(ls)|
      ensures AtLineStart(ls, rest[i].start) && AtLineStart(ls, rest[i].end)
    {
      assert rest[i] == segs[i + 1];
    }
    forall i | 0 <= i < |rest| - 1 ensures rest[i].end == rest[i + 1].start {
      assert rest[i] == segs[i + 1] && rest[i + 1] == segs[i + 2];
    }
  }

  /**
   The first segment, starting at line `a`, ends at some line `mid` and
   folds exactly the lines `a` up to `mid` into the table.
   */
  lemma FirstSegmentLines(ls: seq<Line>, segs: seq<Segment>, a: nat) returns (mid: nat)
    requires AllWellFormed(ls) && segs != [] && a <= |ls|
    requires InFile(segs, |EncodeAll(ls)|) && OnLineStarts(ls, segs)
    requires segs[0].start == Offset(ls, a)
    ensures a <= mid <= |ls| && Offset(ls, mid) == segs[0].end
    ensures InFile(segs[1..], |EncodeAll(ls)|)
    ensures Aggregate(EncodeAll(ls), segs, PutAll(EmptyTable, Measurements(ls)[..a]))
         == Aggregate(EncodeAll(ls), segs[1..], PutAll(EmptyTable, Measurements(ls)[..mid]))
  {
    var f := EncodeAll(ls);
    var ms := Measurements(ls);
    assert AtLineStart(ls, segs[0].end);
    mid :| 0 <= mid <= |ls| && Offset(ls, mid) == segs[0].end;
    if mid < a {
      LinesBetweenOffsets(ls, mid, a);
    }
    ScanLines(ls, a, mid);
    var t := PutAll(EmptyTable, ms[..a]);
    AggregateStep(f, segs, t, ms[a..mid]);
    PutAllAppend(EmptyTable, ms[..a], ms[a..mid]);
    assert a <= mid <= |ms|;
    PrefixSplit(ms, a, mid);
  }

  /**
   Contiguous segments on line starts, beginning at line `a`, fold exactly
   the lines they cover into the table, in order; `b` is the line at which
   the last segment ends.
   */
  lemma {:induction false} AggregateLines(ls: seq<Line>, segs: seq<Segment>, a: nat) returns (b: nat)
    requires AllWellFormed(ls) && segs != [] && a <= |ls|
    requires InFile(segs, |EncodeAll(ls)|) && OnLineStarts(ls, segs) && Contiguous(segs)
    requires segs[0].start == Offset(ls, a)
    ensures a <= b <= |ls| && Offset(ls, b) == segs[|segs| - 1].end
    ensures Aggregate(EncodeAll(ls), segs, PutAll(EmptyTable, Measurements(ls)[..a]))
         == Ok(PutAll(EmptyTable, Measurements(ls)[..b]))
    decreases |segs|
  {
    var mid := FirstSegmentLines(ls, segs, a);
    if |segs| == 1 {
      b := mid;
    } else {
      PlanTail(ls, segs);
      b := AggregateLines(ls, segs[1..], mid);
    }
  }

  /**
   A file too small to split is one segment, which the worker scans whole:
   the run folds every line, whatever the lines' lengths.
   */
  lemma SingleSegmentRun(ls: seq<Line>, cores: nat)
    requires AllWellFormed(ls) && cores >= 1 && |EncodeAll(ls)| / cores < MIN_SEGMENT_SIZE
    ensures Run(EncodeAll(ls), cores) == Ok(PutAll(EmptyTable, Measurements(ls)))
  {
    var f := EncodeAll(ls);
    var segs := GetFileSegments(f, cores);
    assert segs == [Segment(0, |f|)];
    assert f[0..|f|] == f;
    ScanSegmentRoundTrip(ls, |f|);
    AggregateStep(f, segs, EmptyTable, Measurements(ls));
    assert segs[1..] == [];
  }

  /**
   On a file of well-formed lines, split into several segments with every
   line no longer than the lookahead window, the run folds every line.
   */
  lemma SnappedRun(ls: seq<Line>, cores: nat)
    requires ShortLines(ls) && cores >= 1
    ensures Run(EncodeAll(ls), cores) == Ok(PutAll(EmptyTable, Measurements(ls)))
  {
    var f := EncodeAll(ls);
    var segs := GetFileSegments(f, cores);
    var ms := Measurements(ls);
    SegmentsPartition(f, cores);
    PartitionInFile(segs, |f|);
    PlanOnLineStarts(ls, cores);
    OffsetEnds(ls, 0);
    assert PutAll(EmptyTable, ms[..0]) == EmptyTable by {
      assert ms[..0] == [];
    }
    var b := AggregateLines(ls, segs, 0);
    OffsetEnds(ls, b);
    assert ms[..b] == ms;
  }

  /** Line 0 starts the file, the end of the last line ends it, and every other line starts inside it. */
  lemma OffsetEnds(ls: seq<Line>, b: nat)
    requires AllWellFormed(ls) && b <= |ls|
    ensures Offset(ls, 0) == 0 && Offset(ls, |ls|) == |EncodeAll(ls)|
    ensures b < |ls| ==> Offset(ls, b) < |EncodeAll(ls)|
  {
    LinesBetweenOffsets(ls, 0, 0);
    LinesBetweenOffsets(ls, 0, |ls|);
    assert ls[0..|ls|] == ls;
    LinesBetweenOffsets(ls, b, |ls|);
  }

  /** A plan for `cores` that never snaps a cut inside a line longer than the lookahead window. */
  ghost predicate SafePlan(ls: seq<Line>, cores: nat)
    requires AllWellFormed(ls) && cores >= 1
  {
    ShortLines(ls) || |EncodeAll(ls)| / cores < MIN_SEGMENT_SIZE
  }

  /**
   On a file of well-formed lines that is either left whole or has no line
   longer than the lookahead window, the run produces exactly the table
   that folding every line's measurement, in file order, into an empty
   table produces.
   */
  lemma RunFoldsAllLines(ls: seq<Line>, cores: nat)
    requires AllWellFormed(ls) && cores >= 1 && SafePlan(ls, cores)
    ensures Run(EncodeAll(ls), cores) == Ok(PutAll(EmptyTable, Measurements(ls)))
  {
    if |EncodeAll(ls)| / cores < MIN_SEGMENT_SIZE {
      SingleSegmentRun(ls, cores);
    } else {
      SnappedRun(ls, cores);
    }
  }

  /** The core count, and so the segment plan, does not change the result. */
  lemma RunIndependentOfCores(ls: seq<Line>, cores1: nat, cores2: nat)
    requires AllWellFormed(ls) && cores1 >= 1 && cores2 >= 1
    requires SafePlan(ls, cores1) && SafePlan(ls, cores2)
    ensures Run(EncodeAll(ls), cores1) == Run(EncodeAll(ls), cores2)
  {
    RunFoldsAllLines(ls, cores1);
    RunFoldsAllLines(ls, cores2);
  }

  /** `n` copies of `e`, back to back. */
  function Repeat(e: seq<Byte>, n: nat): (r: seq<Byte>)
    ensures |r| == n * |e|
  {
    if n == 0 then [] else e + Repeat(e, n - 1)
  }

  /** Byte `k` of copy `q` is byte `k` of `e`. */
  lemma {:induction false} RepeatIndex(e: seq<Byte>, n: nat, q: nat, k: nat)
    requires q < n && k < |e|
    ensures q * |e| + k < |Repeat(e, n)| && Repeat(e, n)[q * |e| + k] == e[k]
  {
    if q > 0 {
      RepeatIndex(e, n - 1, q - 1, k);
      assert q * |e| + k == |e| + ((q - 1) * |e| + k);
    }
  }

  /** A file of `n` copies of one line is that line's encoding repeated. */
  lemma {:induction false} EncodeRepeated(l: Line, n: nat)
    requires WellFormedLine(l)
    ensures AllWellFormed(seq(n, _ => l))
    ensures EncodeAll(seq(n, _ => l)) == Repeat(EncodeLine(l), n)
  {
    if n > 0 {
      EncodeRepeated(l, n - 1);
      assert seq(n, _ => l)[1..] == seq(n - 1, _ => l);
    }
  }

  /** The longest record the scanner accepts: a 100-byte name, `;-99.9` and CRLF, 108 bytes. */
  function LongLine(): Line {
    Line(seq(BUFFER_SIZE, _ => 97), -999, true)
  }

  /** The long record is well formed, 108 bytes long, and its only newline is its last byte. */
  lemma LongLineLayout()
    ensures WellFormedLine(LongLine())
    ensures |EncodeLine(LongLine())| == 108
    ensures EncodeLine(LongLine())[107] == NEWLINE
    ensures forall k :: 0 <= k < 107 ==> EncodeLine(LongLine())[k] != NEWLINE
    ensures forall k :: 0 <= k < BUFFER_SIZE ==> EncodeLine(LongLine())[k] != SEMICOLON
  {
    var l := LongLine();
    assert TempBytes(-999) == [MINUS, ZERO + 9, ZERO + 9, DOT, ZERO + 9];
    var e := EncodeLine(l);
    assert e == l.key + [SEMICOLON, MINUS, ZERO + 9, ZERO + 9, DOT, ZERO + 9, CARRIAGE_RETURN, NEWLINE];
    forall k | 0 <= k < 107 ensures e[k] != NEWLINE {
      if k < BUFFER_SIZE {
        assert e[k] == l.key[k];
      }
    }
    forall k | 0 <= k < BUFFER_SIZE ensures e[k] != SEMICOLON {
      assert e[k] == l.key[k];
    }
  }

  /** The first `m` copies are a prefix of the first `n`. */
  lemma {:induction false} RepeatPrefix(e: seq<Byte>, m: nat, n: nat)
    requires m <= n
    ensures Repeat(e, m) <= Repeat(e, n)
  {
    if m > 0 {
      RepeatPrefix(e, m - 1, n - 1);
    }
  }

  /**
   The worker for the first segment of the long-record file: its 9,259
   whole records parse, then the key loop runs into the segment end 36
   bytes into the next name, and the temperature read after it fails.
   */
  lemma FirstWorkerFails(f: seq<Byte>)
    requires f == Repeat(EncodeLine(LongLine()), 27_778)
    ensures |f| >= 1_000_008
    ensures ScanSegment(f[..1_000_008], 1_000_008) == Err(OutOfBounds)
  {
    var l := LongLine();
    LongLineLayout();
    var e := EncodeLine(l);
    var s := f[..1_000_008];
    var head := seq(9_259, _ => l);
    EncodeRepeated(l, 9_259);
    var w := EncodeAll(head);
    assert |w| == 999_972;
    RepeatPrefix(e, 9_259, 27_778);
    assert Occurs(s, 0, w) by {
      forall j | 0 <= j < |w| ensures s[j] == w[j] {
        assert w[j] == f[j];
      }
    }
    forall j | 999_972 <= j < |s| ensures s[j] != SEMICOLON {
      RepeatIndex(e, 27_778, 9_259, j - 999_972);
    }
    TruncatedNameFails(s, 999_972);
    ScanLinesThenFail(s, 1_000_008, 0, head, 999_972, OutOfBounds);
  }

  /**
   A witness that a cut can split a record: in a file of 27,778 copies of
   the long record, planned for three cores, the cut at 1,000,008 falls 36
   bytes into the record spanning [999,972, 1,000,080). The window of 64
   bytes after it holds no newline, so segment 1 starts, and segment 0
   ends, strictly inside that record. The first worker then reads past its
   slice, and the run fails with `OutOfBounds` instead of producing a table.
   */
  lemma UnsnappedCutSplitsRecord()
    ensures var ls := seq(27_778, _ => LongLine());
      && AllWellFormed(ls)
      && var f := EncodeAll(ls);
      var segs := GetFileSegments(f, 3);
      && |segs| == 3
      && segs[0].end == segs[1].start == 1_000_008
      && f[999_971] == NEWLINE && f[1_000_079] == NEWLINE
      && NewlineFree(f, 999_972, 1_000_079)
      && Run(f, 3) == Err(OutOfBounds)
  {
    var l := LongLine();
    LongLineLayout();
    var e := EncodeLine(l);
    var ls := seq(27_778, _ => l);
    EncodeRepeated(l, 27_778);
    var f := EncodeAll(ls);
    assert |f| == 3_000_024;
    RepeatIndex(e, 27_778, 9_258, 107);
    RepeatIndex(e, 27_778, 9_259, 107);
    forall j | 999_972 <= j < 1_000_079 ensures f[j] != NEWLINE {
      RepeatIndex(e, 27_778, 9_259, j - 999_972);
    }
    assert NewlineFree(f, 1_000_008, 1_000_072);
    var segs := GetFileSegments(f, 3);
    assert segs[1] == SegmentAt(f, 3, 1) && segs[0] == SegmentAt(f, 3, 0);
    assert WindowEnd(1_000_008, 2_000_016) == 1_000_072;
    assert WindowEnd(1_000_008, |f|) == 1_000_072;
    SegmentsPartition(f, 3);
    PartitionInFile(segs, |f|);
    assert segs[0] == Segment(0, 1_000_008);
    FirstWorkerFails(f);
    assert f[0..1_000_008] == f[..1_000_008];
  }
}

=== FILE: scanner.dfy ===
/**
 The record scanner run by each worker over its slice of the file: it copies
 the station name up to `;` while hashing it, parses the fixed-format
 temperature into integer tenths, and steps over the line ending.
 Positions are relative to the slice; `segmentEnd` is the segment's absolute
 end offset, which the key loop compares against as the original does.
 */
module Scanner {
  import opened JavaInt

  /** Capacity of the scan buffer the station name is copied into. */
  const BUFFER_SIZE: nat := 100

  /**
   The two exceptions a scan can raise: writing a 101st name byte into the
   100-byte buffer, and reading a byte past the end of the slice.
   */
  datatype ScanError = KeyTooLong | OutOfBounds

  datatype Result<T> = Ok(value: T) | Err(error: ScanError)

  /** One parsed record: the station name, its hash and the temperature in tenths. */
  datatype Measurement = Measurement(key: seq<Byte>, hash: int, tenths: int)

  /** What every record the scanner produces satisfies. */
  ghost predicate ValidMeasurement(m: Measurement) {
    && |m.key| <= BUFFER_SIZE
    && SEMICOLON !in m.key
    && m.hash == JavaHash(m.key)
  }

  /** The key hash: the left fold of `h * 31 + b` in Java `int` arithmetic, bytes read signed. */
  function JavaHash(key: seq<Byte>): (h: int)
    ensures IsInt32(h)
  {
    if key == [] then 0
    else Wrap32(31 * JavaHash(key[..|key| - 1]) + JavaByte(key[|key| - 1]))
  }

  /** The same Horner fold over the signed bytes, computed without overflow. */
  ghost function Polynomial(key: seq<Byte>): int {
    if key == [] then 0
    else 31 * Polynomial(key[..|key| - 1]) + JavaByte(key[|key| - 1])
  }

  /** The hash is the exact polynomial reduced to a Java `int`. */
  lemma {:induction false} JavaHashIsWrappedPolynomial(key: seq<Byte>)
    ensures JavaHash(key) == Wrap32(Polynomial(key))
    decreases |key|
  {
    if key != [] {
      var init := key[..|key| - 1];
      JavaHashIsWrappedPolynomial(init);
      Wrap32Step(Polynomial(init), JavaByte(key[|key| - 1]));
    }
  }

  lemma {:induction false} JavaHashSnoc(key: seq<Byte>, b: Byte)
    ensures JavaHash(key + [b]) == Wrap32(31 * JavaHash(key) + JavaByte(b))
  {
    assert (key + [b])[..|key|] == key;
  }

  datatype KeyScan = KeyScan(key: seq<Byte>, hash: int, cursor: nat)

  /**
   `k` is what the key loop yields when it starts at `cur` having already
   buffered `key`: the bytes up to the stopping point appended to `key`,
   none of them a `;`, hashed, and the cursor just past the `;` or at
   `segmentEnd`.
   */
  ghost predicate KeyScanned(s: seq<Byte>, segmentEnd: int, cur: nat, key: seq<Byte>, k: KeyScan) {
    var stop := cur + |k.key| - |key|;
    && cur <= stop <= |s|
    && k.key == key + s[cur..stop]
    && SEMICOLON !in s[cur..stop]
    && |k.key| <= BUFFER_SIZE
    && k.hash == JavaHash(k.key)
    && ((stop < |s| && s[stop] == SEMICOLON && k.cursor == stop + 1)
        || (stop == segmentEnd && k.cursor == stop))
  }

  lemma KeyScannedStep(s: seq<Byte>, segmentEnd: int, cur: nat, key: seq<Byte>, k: KeyScan)
    requires cur < |s| && s[cur] != SEMICOLON
    requires KeyScanned(s, segmentEnd, cur + 1, key + [s[cur]], k)
    ensures KeyScanned(s, segmentEnd, cur, key, k)
  {
    var stop := cur + 1 + |k.key| - |key + [s[cur]]|;
    assert s[cur..stop] == [s[cur]] + s[cur + 1..stop];
    assert key + s[cur..stop] == (key + [s[cur]]) + s[cur + 1..stop];
  }

  /**
   The key loop: while the cursor is not at `segmentEnd`, read a byte; stop
   after a `;`, otherwise store it in the buffer and fold it into the hash.
   `key` and `hash` are what the loop has accumulated so far.
   */
  function ScanKey(s: seq<Byte>, segmentEnd: int, cur: nat, key: seq<Byte>, hash: int): (r: Result<KeyScan>)
    requires cur <= |s|
    requires |key| <= BUFFER_SIZE
    ensures r.Ok? ==> cur <= r.value.cursor <= |s| && |r.value.key| <= BUFFER_SIZE
    ensures r == Err(KeyTooLong) ==> |key| + |s| - cur > BUFFER_SIZE
    decreases |s| - cur
  {
    if cur == segmentEnd then Ok(KeyScan(key, hash, cur))
    else if cur >= |s| then Err(OutOfBounds)
    else if s[cur] == SEMICOLON then Ok(KeyScan(key, hash, cur + 1))
    else if |key| == BUFFER_SIZE then Err(KeyTooLong)
    else ScanKey(s, segmentEnd, cur + 1, key + [s[cur]], Wrap32(31 * hash + JavaByte(s[cur])))
  }

  /**
   Whatever the key loop yields is the run of bytes up to its stopping
   point, free of `;`, appended to what was buffered, with its hash.
   */
  lemma {:induction false} ScanKeySound(s: seq<Byte>, segmentEnd: int, cur: nat, key: seq<Byte>)
    requires cur <= |s| && |key| <= BUFFER_SIZE
    requires ScanKey(s, segmentEnd, cur, key, JavaHash(key)).Ok?
    ensures KeyScanned(s, segmentEnd, cur, key, ScanKey(s, segmentEnd, cur, key, JavaHash(key)).value)
    decreases |s| - cur
  {
    if cur != segmentEnd && cur < |s| && s[cur] != SEMICOLON && |key| < BUFFER_SIZE {
      var k := ScanKey(s, segmentEnd, cur, key, JavaHash(key)).value;
      ScanKeyStep(s, segmentEnd, cur, key);
      ScanKeySound(s, segmentEnd, cur + 1, key + [s[cur]]);
      KeyScannedStep(s, segmentEnd, cur, key, k);
    } else {
      assert s[cur..cur] == [];
    }
  }

  /** One step of the key loop over a byte that is not `;`, with room left in the buffer. */
  lemma ScanKeyStep(s: seq<Byte>, segmentEnd: int, cur: nat, key: seq<Byte>)
    requires cur < |s| && cur != segmentEnd && |key| < BUFFER_SIZE && s[cur] != SEMICOLON
    ensures ScanKey(s, segmentEnd, cur, key, JavaHash(key))
         == ScanKey(s, segmentEnd, cur + 1, key + [s[cur]], JavaHash(key + [s[cur]]))
  {
    JavaHashSnoc(key, s[cur]);
  }

  datatype Reading = Reading(tenths: int, cursor: nat)

  function Digit(b: Byte): int {
    JavaByte(b) - ZERO
  }

  predicate IsDigit(b: Byte) {
    ZERO <= b < ZERO + 10
  }

  /**
   `s[from..to]` is a temperature token of the closed format `-?d.d` or
   `-?dd.d`: an optional minus, one or two digits, a dot, one digit.
   */
  ghost predicate WellFormedTemp(s: seq<Byte>, from: int, to: int) {
    && 0 <= from <= to <= |s|
    && var c := if from < to && s[from] == MINUS then from + 1 else from;
      && (to - c == 3 || to - c == 4)
      && s[to - 2] == DOT
      && (forall j :: c <= j < to && j != to - 2 ==> IsDigit(s[j]))
  }

  /**
   The unrolled temperature parser: an optional `-`, then either `d.d`
   (when the second byte is a dot) or `dd?d` with the third byte unread.
   */
  function ParseTemp(s: seq<Byte>, cur: nat): (r: Result<Reading>)
    ensures r.Ok? ==> cur + 3 <= r.value.cursor <= cur + 5 && r.value.cursor <= |s|
    ensures r.Err? ==> r.error == OutOfBounds && cur + 5 > |s|
    ensures cur + 3 > |s| ==> r.Err?
  {
    if cur >= |s| then Err(OutOfBounds)
    else
      var negative := if s[cur] == MINUS then -1 else 1;
      var c := if s[cur] == MINUS then cur + 1 else cur;
      if c + 1 >= |s| then Err(OutOfBounds)
      else if s[c + 1] == DOT then
        if c + 2 >= |s| then Err(OutOfBounds)
        else Ok(Reading(negative * (Digit(s[c]) * 10 + Digit(s[c + 2])), c + 3))
      else
        if c + 3 >= |s| then Err(OutOfBounds)
        else Ok(Reading(negative * (Digit(s[c]) * 100 + (Digit(s[c + 1]) * 10 + Digit(s[c + 3]))), c + 4))
  }

  /**
   On a well-formed token the parsed value lies within ±99.9 degrees and is
   negative only when a leading minus was consumed.
   */
  lemma ParseTempRange(s: seq<Byte>, cur: nat)
    requires ParseTemp(s, cur).Ok?
    requires WellFormedTemp(s, cur, ParseTemp(s, cur).value.cursor)
    ensures var t := ParseTemp(s, cur).value.tenths;
      && -999 <= t <= 999
      && (t < 0 ==> s[cur] == MINUS)
      && (s[cur] == MINUS ==> t <= 0)
  {
  }

  datatype Parsed = Parsed(m: Measurement, next: nat)

  /**
   One iteration of the scan loop starting at `pos`: key, temperature, then
   an optional `\r` and one more byte (the newline, not inspected).
   */
  function ParseRecord(s: seq<Byte>, segmentEnd: int, pos: nat): (r: Result<Parsed>)
    requires pos < |s|
    ensures r.Ok? ==> pos + 4 <= r.value.next <= |s| + 1
  {
    match ScanKey(s, segmentEnd, pos, [], 0)
    case Err(e) => Err(e)
    case Ok(k) =>
      match ParseTemp(s, k.cursor)
      case Err(e) => Err(e)
      case Ok(t) =>
        if t.cursor >= |s| then Err(OutOfBounds)
        else
          var next := if s[t.cursor] == CARRIAGE_RETURN then t.cursor + 2 else t.cursor + 1;
          Ok(Parsed(Measurement(k.key, k.hash, t.tenths), next))
  }

  /** A parsed record's key is the bytes at `pos`, and the measurement is valid. */
  lemma ParseRecordSound(s: seq<Byte>, segmentEnd: int, pos: nat)
    requires pos < |s| && ParseRecord(s, segmentEnd, pos).Ok?
    ensures var m := ParseRecord(s, segmentEnd, pos).value.m;
      && ValidMeasurement(m)
      && pos + |m.key| <= |s|
      && m.key == s[pos..pos + |m.key|]
  {
    ScanKeySound(s, segmentEnd, pos, []);
    var k := ScanKey(s, segmentEnd, pos, [], 0).value;
    assert [] + s[pos..pos + |k.key|] == s[pos..pos + |k.key|];
  }

  /** A record whose key and temperature parse, followed by at least one more byte, parses. */
  lemma ParseRecordOfParts(s: seq<Byte>, segmentEnd: int, pos: nat, k: KeyScan, t: Reading, next: nat)
    requires pos < |s|
    requires ScanKey(s, segmentEnd, pos, [], 0) == Ok(k)
    requires ParseTemp(s, k.cursor) == Ok(t)
    requires t.cursor < |s|
    requires next == if s[t.cursor] == CARRIAGE_RETURN then t.cursor + 2 else t.cursor + 1
    ensures ParseRecord(s, segmentEnd, pos) == Ok(Parsed(Measurement(k.key, k.hash, t.tenths), next))
  {
  }

  /** The scan loop from `pos` to the end of the slice: one measurement per record, or the first error. */
  function ScanFrom(s: seq<Byte>, segmentEnd: int, pos: nat): (r: Result<seq<Measurement>>)
    requires pos <= |s| + 1
    ensures r.Ok? ==> 4 * |r.value| <= |s| - pos + 4
    ensures pos >= |s| ==> r == Ok([])
    decreases |s| - pos
  {
    if pos >= |s| then Ok([])
    else
      match ParseRecord(s, segmentEnd, pos)
      case Err(e) => Err(e)
      case Ok(p) =>
        match ScanFrom(s, segmentEnd, p.next)
        case Err(e) => Err(e)
        case Ok(ms) => Ok([p.m] + ms)
  }

  /** One iteration of the scan loop: a parsed record followed by the scan of the rest. */
  lemma ScanFromStep(s: seq<Byte>, segmentEnd: int, pos: nat, p: Parsed, ms: seq<Measurement>)
    requires pos < |s| && ParseRecord(s, segmentEnd, pos) == Ok(p)
    requires ScanFrom(s, segmentEnd, p.next) == Ok(ms)
    ensures ScanFrom(s, segmentEnd, pos) == Ok([p.m] + ms)
  {
  }

  /** A parsed record followed by a failing scan of the rest fails the same way. */
  lemma ScanFromErrStep(s: seq<Byte>, segmentEnd: int, pos: nat, p: Parsed, e: ScanError)
    requires pos < |s| && ParseRecord(s, segmentEnd, pos) == Ok(p)
    requires ScanFrom(s, segmentEnd, p.next) == Err(e)
    ensures ScanFrom(s, segmentEnd, pos) == Err(e)
  {
  }

  /** Every measurement the scan loop produces is valid. */
  lemma {:induction false} ScanFromSound(s: seq<Byte>, segmentEnd: int, pos: nat)
    requires pos <= |s| + 1 && ScanFrom(s, segmentEnd, pos).Ok?
    ensures var ms := ScanFrom(s, segmentEnd, pos).value;
      forall i :: 0 <= i < |ms| ==> ValidMeasurement(ms[i])
    decreases |s| - pos
  {
    if pos < |s| {
      ParseRecordSound(s, segmentEnd, pos);
      ScanFromSound(s, segmentEnd, ParseRecord(s, segmentEnd, pos).value.next);
    }
  }

  /** Scans a whole segment slice, as the worker for that segment does. */
  function ScanSegment(slice: seq<Byte>, segmentEnd: int): (r: Result<seq<Measurement>>)
    ensures r.Ok? ==> 4 * |r.value| <= |slice| + 4
  {
    ScanFrom(slice, segmentEnd, 0)
  }

  /** Every measurement a segment's scan produces is valid. */
  lemma ScanSegmentSound(slice: seq<Byte>, segmentEnd: int)
    requires ScanSegment(slice, segmentEnd).Ok?
    ensures forall m :: m in ScanSegment(slice, segmentEnd).value ==> ValidMeasurement(m)
  {
    ScanFromSound(slice, segmentEnd, 0);
  }
}

=== FILE: segments.dfy ===
/**
 The segment planner: the mapped file is cut into one byte range per core,
 and every interior cut is moved forward to just past the next line
 terminator within 64 bytes, so that no record that ends within that
 window is split between two workers.
 */
module Segments {
  import opened JavaInt

  /** Below this many bytes per core the file is processed as one segment. */
  const MIN_SEGMENT_SIZE: nat := 1_000_000
  /** How far past a naive cut the planner looks for a line terminator. */
  const WINDOW: nat := 64

  datatype Segment = Segment(start: nat, end: nat)

  ghost predicate NewlineFree(f: seq<Byte>, from: int, to: int)
    requires 0 <= from <= to <= |f|
  {
    forall j :: from <= j < to ==> f[j] != NEWLINE
  }

  /** Index of the first newline in `f[from..to]`, or `to` when there is none. */
  function FirstNewline(f: seq<Byte>, from: nat, to: nat): (k: nat)
    requires from <= to <= |f|
    ensures from <= k <= to
    ensures k < to ==> f[k] == NEWLINE
    ensures NewlineFree(f, from, k)
    decreases (to as int) - (from as int)
  {
    if from == to then to
    else if f[from] == NEWLINE then from
    else FirstNewline(f, from + 1, to)
  }

  /** End of the lookahead window at `location`: 64 bytes, or fewer near `limit`. */
  function WindowEnd(location: nat, limit: nat): (e: nat)
    requires location <= limit
    ensures location <= e <= limit && e <= location + WINDOW
    ensures limit - location >= WINDOW ==> e == location + WINDOW
  {
    location + (if limit - location < WINDOW then limit - location else WINDOW)
  }

  /**
   Snaps `location` forward to just past the first newline in its window,
   unless this is the segment whose boundary must stay put (`i == skipSegment`)
   or the window holds no newline.
   */
  function FindSegment(f: seq<Byte>, i: int, skipSegment: int, location: nat, limit: nat): (r: nat)
    requires location <= limit <= |f|
    ensures location <= r <= location + WINDOW && r <= limit
    ensures r == location <==> i == skipSegment || NewlineFree(f, location, WindowEnd(location, limit))
    ensures r != location ==> f[r - 1] == NEWLINE && NewlineFree(f, location, r - 1)
  {
    if i != skipSegment then
      var k := FirstNewline(f, location, WindowEnd(location, limit));
      if k < WindowEnd(location, limit) then k + 1 else location
    else
      location
  }

  /** The naive cuts `i * size` and `(i + 1) * size` lie inside the file. */
  lemma NaiveCutsInFile(fileSize: nat, n: nat, i: nat)
    requires 0 <= i < n
    ensures (i + 1) * (fileSize / n) <= n * (fileSize / n) <= fileSize
    ensures i * (fileSize / n) + fileSize / n == (i + 1) * (fileSize / n)
  {
    MulMonotone(i + 1, n, fileSize / n);
  }

  /** Segment `i` of `n` for per-core size `size`, as the planner's loop builds it. */
  function SegmentAt(f: seq<Byte>, n: nat, i: nat): (s: Segment)
    requires 0 <= i < n && |f| / n >= MIN_SEGMENT_SIZE
    ensures i * (|f| / n) <= s.start <= i * (|f| / n) + WINDOW
    ensures i < n - 1 ==> (i + 1) * (|f| / n) <= s.end <= (i + 1) * (|f| / n) + WINDOW
    ensures i == n - 1 ==> s.end == |f|
  {
    var size := |f| / n;
    NaiveCutsInFile(|f|, n, i);
    var naiveStart := i * size;
    var naiveEnd := if i == n - 1 then |f| else naiveStart + size;
    Segment(FindSegment(f, i, 0, naiveStart, naiveEnd), FindSegment(f, i, n - 1, naiveEnd, |f|))
  }

  /**
   Plans the segments for `n` cores (`availableProcessors`, at least one):
   a single segment for a small file, otherwise exactly `n`.
   */
  function GetFileSegments(f: seq<Byte>, n: nat): (r: seq<Segment>)
    requires n >= 1
    ensures |f| / n < MIN_SEGMENT_SIZE ==> r == [Segment(0, |f|)]
    ensures |f| / n >= MIN_SEGMENT_SIZE ==> |r| == n
  {
    if |f| / n < MIN_SEGMENT_SIZE then [Segment(0, |f|)]
    else seq(n, i requires 0 <= i < n => SegmentAt(f, n, i))
  }

  /** The segments are contiguous and together cover exactly `[0, fileSize)`. */
  ghost predicate Partitions(segs: seq<Segment>, fileSize: nat) {
    && |segs| >= 1
    && segs[0].start == 0
    && segs[|segs| - 1].end == fileSize
    && (forall i :: 0 <= i < |segs| ==> segs[i].start <= segs[i].end)
    && (forall i :: 0 <= i < |segs| - 1 ==> segs[i].end == segs[i + 1].start)
  }

  /**
   Every interior boundary sits just past a newline, unless the 64 bytes
   from it hold no newline at all (the cut was left where it fell).
   */
  ghost predicate Aligned(f: seq<Byte>, segs: seq<Segment>) {
    forall i :: 0 < i < |segs| ==>
      var b := segs[i].start;
      && 0 < b
      && b + WINDOW <= |f|
      && (f[b - 1] == NEWLINE || NewlineFree(f, b, b + WINDOW))
  }

  /** End `i` and start `i + 1` are computed from the same cut with the same window. */
  lemma {:induction false} AdjacentSegmentsMeet(f: seq<Byte>, n: nat, i: nat)
    requires 0 <= i < n - 1 && |f| / n >= MIN_SEGMENT_SIZE
    ensures SegmentAt(f, n, i).end == SegmentAt(f, n, i + 1).start
  {
    var size := |f| / n;
    NaiveCutsInFile(|f|, n, i + 1);
    NaiveCutsInFile(|f|, n, i);
    var cut := (i + 1) * size;
    var nextEnd := if i + 1 == n - 1 then |f| else cut + size;
    assert WindowEnd(cut, nextEnd) == cut + WINDOW;
    assert WindowEnd(cut, |f|) == cut + WINDOW;
  }

  /** A segment never starts after it ends, and interior starts are snapped or windowless. */
  lemma {:induction false} SegmentAtShape(f: seq<Byte>, n: nat, i: nat)
    requires 0 <= i < n && |f| / n >= MIN_SEGMENT_SIZE
    ensures SegmentAt(f, n, i).start <= SegmentAt(f, n, i).end
    ensures i == 0 ==> SegmentAt(f, n, i).start == 0
    ensures i == n - 1 ==> SegmentAt(f, n, i).end == |f|
    ensures i > 0 ==>
      var b := SegmentAt(f, n, i).start;
      0 < b && b + WINDOW <= |f| && (f[b - 1] == NEWLINE || NewlineFree(f, b, b + WINDOW))
  {
    var size := |f| / n;
    NaiveCutsInFile(|f|, n, i);
    var naiveStart := i * size;
    var naiveEnd := if i == n - 1 then |f| else naiveStart + size;
    assert naiveStart + size <= naiveEnd;
    if i > 0 {
      MulMonotone(1, i, size);
      assert WindowEnd(naiveStart, naiveEnd) == naiveStart + WINDOW;
    }
  }

  /** Every planned segment is ordered, and every interior start is snapped or windowless. */
  lemma PlanShape(f: seq<Byte>, n: nat)
    requires n >= 1 && |f| / n >= MIN_SEGMENT_SIZE
    ensures var segs := GetFileSegments(f, n);
      forall i :: 0 <= i < n ==>
        && segs[i].start <= segs[i].end
        && (i > 0 ==> 0 < segs[i].start && segs[i].start + WINDOW <= |f|)
        && (i > 0 ==> f[segs[i].start - 1] == NEWLINE || NewlineFree(f, segs[i].start, segs[i].start + WINDOW))
  {
    var segs := GetFileSegments(f, n);
    forall i | 0 <= i < n
      ensures segs[i].start <= segs[i].end
      ensures i > 0 ==> 0 < segs[i].start && segs[i].start + WINDOW <= |f|
      ensures i > 0 ==> f[segs[i].start - 1] == NEWLINE || NewlineFree(f, segs[i].start, segs[i].start + WINDOW)
    {
      SegmentAtShape(f, n, i);
    }
  }

  /** Consecutive planned segments meet. */
  lemma PlanMeets(f: seq<Byte>, n: nat)
    requires n >= 1 && |f| / n >= MIN_SEGMENT_SIZE
    ensures var segs := GetFileSegments(f, n);
      forall i :: 0 <= i < n - 1 ==> segs[i].end == segs[i + 1].start
  {
    var segs := GetFileSegments(f, n);
    forall i | 0 <= i < n - 1
      ensures segs[i].end == segs[i + 1].start
    {
      AdjacentSegmentsMeet(f, n, i);
    }
  }

  /**
   The planner's central guarantee: whatever the core count, the segments
   partition the file and every interior boundary is record-aligned or
   left unsnapped.
   */
  lemma {:induction false} SegmentsPartition(f: seq<Byte>, n: nat)
    requires n >= 1
    ensures Partitions(GetFileSegments(f, n), |f|)
    ensures Aligned(f, GetFileSegments(f, n))
  {
    if |f| / n >= MIN_SEGMENT_SIZE {
      PlanShape(f, n);
      PlanMeets(f, n);
      SegmentAtShape(f, n, 0);
      SegmentAtShape(f, n, n - 1);
    }
  }
}
